=== FILE: README.md ===
# Database streaming exercises and the chat API, modelled in Dafny

This project models the logic at the core of the `alx-backend-python`
coursework repository. It covers five areas:

- **Streaming producers** over a MySQL result set:
  - `stream_users`, a `fetchone` loop;
  - `stream_users_in_batches`, a `fetchmany` loop, with the `batch_processing` age filter;
  - `paginate_users` / `lazy_paginate`, offset pages: the corrected LIMIT/OFFSET query and the statement the code actually sends;
  - `stream_user_ages` with `calculate_average_age`.
- **The `retry_on_failure` and `with_db_connection` decorators.**
- **The `insert_data` seeding fold** over CSV rows.
- **The chat API's permission classes** (`IsParticipantOfConversation`, in the messaging app and in the middleware project) and the two DRF viewsets' handlers.
- **The `DatabaseConnection` and `ExecuteQuery` context managers.**

The database is never called. A result set is an immutable sequence of rows together with how it ends: a clean end of set, or a driver error raised after the rows delivered so far. A generator drained by its consumer becomes a pure function from the result set to the items it yields, the reason it stopped, and flags saying what its cleanup released. A consumer that closes a generator early is a `Demand` (`Take(n)`). Retry is a fold over the wrapped function's successive outcomes. The context managers are small lifecycle machines whose traces record each completed open, execute, block and close step. The chat API works over a `Store` of users, conversations and messages.

Files:

| file | module(s) | models |
|---|---|---|
| `base.dfy` | `Base` | `Option`, `Flatten` and sequence helpers |
| `rows.dfy` | `Rows`, `Cursor` | rows as dicts, result sets, `fetchone`, `fetchmany` |
| `chunking.dfy` | `Chunking` | the reference split into fixed-size chunks |
| `stream_users.dfy` | `StreamUsers` | `0-stream_users.py` |
| `batch_processing.dfy` | `BatchProcessing` | `1-batch_processing.py` |
| `lazy_paginate.dfy` | `LazyPaginate` | `2-lazy_paginate.py`, with the page clause inside the SELECT |
| `paginate_as_written.dfy` | `PaginateAsWritten` | `2-lazy_paginate.py` as written, with the page clause after `QUERY`'s `;` |
| `stream_ages.dfy` | `StreamAges` | `4-stream_ages.py` |
| `retry_on_failure.dfy` | `RetryOnFailure` | `3-retry_on_failure.py` |
| `seed.dfy` | `Seed` | `insert_data` of `seed.py` |
| `context_managers.dfy` | `Lifecycle`, `DatabaseConnection`, `ExecuteQuery` | `0-databaseconnection.py`, `1-execute.py` |
| `chats.dfy` | `Chats` | users, conversations, messages, the requester |
| `chat_permissions.dfy` | `ChatPermissions` | `messaging_app/chats/permissions.py` |
| `middleware_permissions.dfy` | `MiddlewarePermissions` | `Django-Middleware-0x03/chats/permissions.py` |
| `text.dfy` | `Text` | Python's `str.strip()` |
| `views.dfy` | `ChatViews` | `messaging_app/chats/views.py` |

Behaviour of the code worth knowing before reading the contracts:

- **Errors end streams quietly.** `stream_users`, `stream_users_in_batches` and `stream_user_ages` catch the driver error and end the stream, so the consumer cannot tell a failure from the end of the data. `paginate_users` turns every failure into an empty page, so with the corrected query `lazy_paginate` stops as if the table had ended (`LazyPaginate.FaultLooksLikeEndOfTable`).
- **The page query is malformed.** `QUERY` ends in `;` and `paginate_users` appends `LIMIT … OFFSET …` after it, so every page request is two statements in one `execute`. If the driver rejects the trailing text, every page is `[]` and `lazy_paginate` yields nothing. If it reads only the first statement, every page is the whole table and the loop never ends. `LazyPaginate` models the evidently intended query; `PaginateAsWritten` models the code as written (see Findings).
- **Retry bound.** `retry_on_failure(retries)` makes `retries + 1` invocations at most, because the first call is not a retry.
- **`stream_users` row count.** `stream_users` stops at the first falsy row (`while row:`), so an empty row ends the stream early (`StreamUsers.TruthyPrefix`).
- **Cleanup re-checks the connection.** The `finally` blocks of `stream_users`, `stream_user_ages` and `paginate_users` close the connection only if `is_connected()` still holds, so a driver error that dropped the connection leaves it unclosed (`StreamUsers.StreamUsersLosesConnection`).
- **Release on failure.** `ExecuteQuery` never reaches `__exit__` when `__enter__` raises, so whatever it opened stays open (`ExecuteQuery.EnterFailureLeaks`). `with_db_connection` connects outside its `try`, so a failed connect runs nothing and closes nothing.

## Model

| member | source | states |
|---|---|---|
| Cursor.FetchOne | python-generators-0x00/0-stream_users.py:40-43 | `fetchone` returns the row at the current position while rows remain. At the end it returns None for a clean result set and raises for a failing one. |
| Cursor.FetchMany | python-generators-0x00/1-batch_processing.py:56 | `fetchmany(size)` returns the next `size` rows, or what is left of a cleanly ended set (possibly nothing). It raises exactly when the chunk would reach past the rows a failing set delivered. |
| StreamUsers.TruthyPrefix | python-generators-0x00/0-stream_users.py:41 | The number of leading rows that pass `while row:`. All of them are non-empty dicts, and the row after them, if any, is empty. |
| StreamUsers.FetchOneLoop | python-generators-0x00/0-stream_users.py:40-43 | The loop yields consecutive truthy rows in result order. It stops on None, on a falsy row, on a swallowed driver error only at the end of a failing set, or when the consumer is satisfied, and never hands out more than asked for. |
| StreamUsers.StreamUsers | python-generators-0x00/0-stream_users.py:21-52 | The consumer gets a prefix of the result: its first `min(demand, truthy prefix)` rows when connected, nothing otherwise. The cursor is closed exactly when the generator body ran on a live connection; the connection too, unless a driver error that dropped it ended the stream. The stream ends "swallowed" exactly on a refused connection or a driver error reached before the demand was met. |
| StreamUsers.StreamUsersYieldsAll | python-generators-0x00/0-stream_users.py:35-43 | Draining over a healthy set of non-empty rows yields every row once, in order, ends at the end of rows, and closes cursor and connection. |
| StreamUsers.StreamUsersLosesConnection | python-generators-0x00/0-stream_users.py:45-52 | A driver error that drops the connection is swallowed after the rows before it; the cursor is closed but the connection, no longer connected, is not. |
| StreamUsers.StreamUsersEarlyClose | python-generators-0x00/0-stream_users.py:41-52 | Closing the generator after `k` rows hands out exactly the first `k` rows and still closes cursor and connection. |
| Chunking.Chunks | python-generators-0x00/1-batch_processing.py:55-59 | Reference split: every chunk holds 1 to `size` elements, only the last may be short, and the chunks concatenate back to the input. |
| Chunking.ChunksCount | python-generators-0x00/1-batch_processing.py:55-59 | There are ceil(N / size) chunks, stated without division. |
| Chunking.ChunksUnique | python-generators-0x00/1-batch_processing.py:55-59 | Any cut into non-empty pieces of at most `size` where only the last is short is the chunking of its concatenation. |
| BatchProcessing.FetchManyLoop | python-generators-0x00/1-batch_processing.py:55-59 | With no rows left the loop yields nothing, and a started loop always has a reason to stop. Every yielded batch holds 1 to `size` rows and only the last may be short, so the empty fetch is never yielded. |
| BatchProcessing.LoopStep | python-generators-0x00/1-batch_processing.py:55-59 | A loop that yields anything first yields the next `size` rows (fewer only at a clean end) and carries on right after them. |
| BatchProcessing.LoopCovers | python-generators-0x00/1-batch_processing.py:55-59 | The yielded batches concatenate to the consecutive rows starting where the loop began: no loss, duplication or reordering. |
| BatchProcessing.LoopFullUnderError | python-generators-0x00/1-batch_processing.py:55-62 | Over a set that ends in a driver error, every yielded batch is full. |
| BatchProcessing.LoopHonoursDemand | python-generators-0x00/1-batch_processing.py:55-59 | A consumer taking `n` batches never receives more. |
| BatchProcessing.LoopEnds | python-generators-0x00/1-batch_processing.py:55-64 | The loop stops only at a clean end of rows, at a driver error less than one batch from the end of the delivered rows, or when the consumer is satisfied. |
| BatchProcessing.StreamUsersInBatches | python-generators-0x00/1-batch_processing.py:33-64 | Batches are well shaped and cover a prefix of the result. A connection that is not connected yields nothing. A driver error ends the stream quietly after full batches only. The `with` blocks close the cursor exactly when it was opened, and the connection whenever one was made. |
| BatchProcessing.BatchesReproduceResult | python-generators-0x00/1-batch_processing.py:55-59 | Draining a healthy result set yields exactly its chunks: they concatenate to the whole result, and there are ceil(N / size) of them. |
| BatchProcessing.BatchesBeforeError | python-generators-0x00/1-batch_processing.py:55-64 | A driver error is swallowed. The consumer sees full batches that chunk a prefix of the result less than one batch short of it. |
| BatchProcessing.SevenRowsInThrees | python-generators-0x00/1-batch_processing.py:55-59 | Seven rows in batches of three arrive as 3, 3 and 1 rows. |
| BatchProcessing.KeepOver25 | python-generators-0x00/1-batch_processing.py:81-84 | The comprehension succeeds exactly when every age compares with 25 (a missing age counts as 0). It then keeps exactly the rows whose age exceeds 25. |
| BatchProcessing.KeepOver25Append | python-generators-0x00/1-batch_processing.py:81-84 | Filtering preserves order: filtering a concatenation concatenates the filtered parts. |
| BatchProcessing.KeepOver25Split | python-generators-0x00/1-batch_processing.py:81-84 | A concatenation can be filtered exactly when both parts can. |
| BatchProcessing.ProcessBatches | python-generators-0x00/1-batch_processing.py:78-84 | One report per batch, each the filter of that batch, in order. When a filter raises, the reports stop exactly at that batch. |
| BatchProcessing.BatchProcessing | python-generators-0x00/1-batch_processing.py:68-92 | The reports together are the over-25 users of the prefix of the result that was streamed, in order. A TypeError escapes exactly when an age in that prefix cannot be compared. Without a live connection nothing is reported. |
| BatchProcessing.ProcessBatchesMatchesWholeFilter | python-generators-0x00/1-batch_processing.py:78-84 | Filtering batch by batch raises exactly when filtering the whole stream would. Otherwise the reports concatenate to the whole stream's filter. |
| BatchProcessing.BatchProcessingFindsOver25 | python-generators-0x00/1-batch_processing.py:68-92 | Over a healthy table with comparable ages, the reports list exactly the users over 25 of the whole table, in table order. |
| LazyPaginate.PaginateUsers | python-generators-0x00/2-lazy_paginate.py:31-62 | With the page clause inside the SELECT (the corrected query), a page never exceeds `page_size`. Any failure (connect, not connected, query, negative LIMIT/OFFSET) gives `[]`. A healthy page is the slice `rows[offset .. offset + page_size)` clipped to the table. |
| LazyPaginate.PaginateUsersReleases | python-generators-0x00/2-lazy_paginate.py:36-62 | The connection is closed exactly when `StillConnected` holds: it was opened, it passed `is_connected()`, and no query error dropped it. The cursor is closed only after a successful fetch. |
| LazyPaginate.PagesFrom | python-generators-0x00/2-lazy_paginate.py:74-86 | Every yielded page is non-empty and at most `page_size` long. |
| LazyPaginate.PageAt | python-generators-0x00/2-lazy_paginate.py:71-86 | Page `k` is what `paginate_users` returned `k` page steps after the start. |
| LazyPaginate.PagesEndAt | python-generators-0x00/2-lazy_paginate.py:79-80 | The loop stopped because the page one step after the last yielded page was empty. |
| LazyPaginate.PagesFromOffsets | python-generators-0x00/2-lazy_paginate.py:71-86 | Page `k` is fetched at offset `offset + k * page_size`. The page at `offset + |pages| * page_size` is empty and not yielded. |
| LazyPaginate.OffsetAfterIsProduct | python-generators-0x00/2-lazy_paginate.py:86 | Adding `page_size` to the offset `k` times, starting from `o`, reaches `o + k * page_size`. |
| LazyPaginate.LazyPaginate | python-generators-0x00/2-lazy_paginate.py:66-86 | Page `k` is the one `paginate_users` returns `k` steps of `P` after offset 0, which `OffsetAfterIsProduct` equates with `k * P`. Every yielded page is non-empty, and the first empty page ends the loop unyielded. |
| LazyPaginate.PagesFromAreChunks | python-generators-0x00/2-lazy_paginate.py:74-86 | With the corrected query and no failing page query, the pages from an offset on are the chunks of the rest of the table. |
| LazyPaginate.LastPage | python-generators-0x00/2-lazy_paginate.py:74-86 | With the corrected query, a short healthy page is the last page yielded. |
| LazyPaginate.FullPageFirst | python-generators-0x00/2-lazy_paginate.py:76-86 | With the corrected query, a full healthy page is yielded first, and the loop goes on at the next offset. |
| LazyPaginate.LazyPaginateCoversTable | python-generators-0x00/2-lazy_paginate.py:66-86 | With the corrected query, over a table whose page queries succeed, the pages are the table's chunks and concatenate to the whole table in order. |
| LazyPaginate.LazyPaginatePageCount | python-generators-0x00/2-lazy_paginate.py:66-86 | With the corrected query, over a table whose page queries succeed, there are ceil(N / P) pages. |
| LazyPaginate.FiveRowsInTwos | python-generators-0x00/2-lazy_paginate.py:66-86 | With the corrected query, five rows in pages of two arrive as 2, 2 and 1 rows. |
| LazyPaginate.PagesUpToFault | python-generators-0x00/2-lazy_paginate.py:74-86 | With the corrected query, when the first failing offset is a whole number of pages away, the pages are the chunks of the table up to it. |
| LazyPaginate.FaultLooksLikeEndOfTable | python-generators-0x00/2-lazy_paginate.py:56-80 | With the corrected query, a failing page is indistinguishable from the end of the table: the consumer sees the pages of the table cut off at the first failing offset. |
| PaginateAsWritten.AsWrittenIsTwoStatements | python-generators-0x00/2-lazy_paginate.py:27-47 | The statement built from `QUERY` and the page clause has text after a `;` for every page size and offset. |
| PaginateAsWritten.IntendedIsOneStatement | python-generators-0x00/2-lazy_paginate.py:27-47 | With the page clause inside the SELECT, the page request is a single statement for every page size and offset. |
| PaginateAsWritten.PaginateUsersAsWritten | python-generators-0x00/2-lazy_paginate.py:31-62 | As written, a driver that rejects the trailing clause gives `[]` for every page and leaves the cursor open. One that ignores it gives the whole table for every healthy page. Faults give `[]`, and the connection is released exactly as in the corrected fetch (`StillConnected`). |
| PaginateAsWritten.PagesAsWritten | python-generators-0x00/2-lazy_paginate.py:74-86 | A bounded prefix of the as-written loop yields at most `fuel` pages, all non-empty. |
| PaginateAsWritten.AsWrittenYieldsNothing | python-generators-0x00/2-lazy_paginate.py:71-80 | As written, over a driver that rejects the trailing clause, the first page is empty and `lazy_paginate` yields nothing, whatever the table holds. |
| PaginateAsWritten.AsWrittenNeverEnds | python-generators-0x00/2-lazy_paginate.py:74-86 | As written, over a driver that ignores the trailing clause and a non-empty healthy table, every round yields the whole table, so the `break` is never reached. |
| PaginateAsWritten.FiveRowsAsWritten | python-generators-0x00/2-lazy_paginate.py:27-86 | Five rows in pages of two: the corrected loop yields three pages. As written it yields nothing over one driver and the whole table round after round over the other. |
| StreamAges.NonNull | python-generators-0x00/4-stream_ages.py:39-41 | The ages kept are exactly the non-NULL values, never more of them than rows. |
| StreamAges.NonNullAppend | python-generators-0x00/4-stream_ages.py:39-41 | Skipping NULLs keeps result order: it distributes over concatenation. |
| StreamAges.StreamUserAges | python-generators-0x00/4-stream_ages.py:25-48 | Over a live connection the stream yields the non-NULL ages; otherwise it yields nothing. It ends swallowed exactly on a failed connection or a driver error. Cursor and connection are closed together, exactly when connected and no driver error dropped the connection. |
| StreamAges.CalculateAverageAge | python-generators-0x00/4-stream_ages.py:52-69 | The fold reports "no users" exactly when no age was streamed, so no division by zero happens. Otherwise `total` is the sum and `count` the number of the streamed ages. |
| StreamAges.AverageWithinRange | python-generators-0x00/4-stream_ages.py:60-68 | In integers, `lo * count <= total <= hi * count`, so the average lies between the youngest and oldest ages. |
| StreamAges.NoNullExample | python-generators-0x00/4-stream_ages.py:39-41 | [20, 30, 40] streams as 20, 30, 40. |
| StreamAges.NullDroppedExample | python-generators-0x00/4-stream_ages.py:39-41 | [20, NULL, 40] streams as 20, 40, and an all-NULL column streams nothing. |
| StreamAges.AverageExamples | python-generators-0x00/4-stream_ages.py:56-69 | [20, 30, 40] and [20, NULL, 40] both average exactly 30: a NULL is skipped, not counted as 0. An all-NULL column reports no users. |
| RetryOnFailure.AttemptsCounts | python-decorators-0x01/3-retry_on_failure.py:25-34 | `n` attempts make `n` invocations and `n - 1` sleeps, and end with an invocation: no sleep follows the final one. |
| RetryOnFailure.RetryLoop | python-decorators-0x01/3-retry_on_failure.py:24-34 | Within the invocation bound, every invocation but the last raised OperationalError. The last outcome is returned or re-raised unchanged, and an OperationalError is re-raised only once the bound is reached. |
| RetryOnFailure.RetryOnFailure | python-decorators-0x01/3-retry_on_failure.py:20-36 | At most `retries + 1` invocations. All but the last raised OperationalError, each followed by a sleep. The last outcome is the result. |
| RetryOnFailure.ImmediateSuccess | python-decorators-0x01/3-retry_on_failure.py:26-27 | A first call that returns is returned at once: one invocation, no sleep. |
| RetryOnFailure.OtherErrorPropagates | python-decorators-0x01/3-retry_on_failure.py:26-28 | Any other exception propagates on its first occurrence, with no retry or sleep after it. |
| RetryOnFailure.FlakySuccess | python-decorators-0x01/3-retry_on_failure.py:24-34 | `f <= retries` OperationalErrors and then success give the success after `f + 1` invocations and `f` sleeps. |
| RetryOnFailure.PersistentFailure | python-decorators-0x01/3-retry_on_failure.py:29-32 | A persisting OperationalError is re-raised (the last one) after exactly `retries + 1` invocations and `retries` sleeps. |
| RetryOnFailure.WithDbConnection | python-decorators-0x01/3-retry_on_failure.py:7-16 | Once connected, the wrapper opens first and closes last around the wrapped call, and returns the call's result unchanged. A failed connect propagates its exception without calling the function or closing anything. |
| RetryOnFailure.FetchUsersWithRetry | python-decorators-0x01/3-retry_on_failure.py:39-44 | Once connected, one to six attempts; every one but the last raised OperationalError, and the last outcome is the result. A persisting OperationalError is re-raised only after six. A failed connect makes no attempt. |
| RetryOnFailure.FetchUsersSharesOneConnection | python-decorators-0x01/3-retry_on_failure.py:39-44 | Once connected, all of at most six attempts share one connection, opened once and closed once. |
| RetryOnFailure.ConnectFailureNotRetried | python-decorators-0x01/3-retry_on_failure.py:7-12 | The retry loop sits inside the connection: a connect that raises, even OperationalError, is not retried and runs no attempt. |
| Seed.InsertFrom | python-generators-0x00/seed.py:110-127 | Each insert comes from a data row with three fields, under consecutive fresh ids. Its email was not known before and is never repeated. The loop fails exactly when a statement of a well-formed row raises. |
| Seed.Occurrences | python-generators-0x00/seed.py:110-121 | The rows the loop would insert: each listed row has three fields, and its email is neither known nor on any earlier well-formed row. |
| Seed.OccurrencesIncreasing | python-generators-0x00/seed.py:110 | Those rows are listed in CSV order, strictly increasing. |
| Seed.OccurrencesComplete | python-generators-0x00/seed.py:110-121 | Every such row is listed. |
| Seed.SkipRow | python-generators-0x00/seed.py:111-121 | A malformed row, or a working one whose email is known, adds no insert and no occurrence. |
| Seed.TakeRow | python-generators-0x00/seed.py:115-127 | A well-formed row with a new email and working statements becomes the next insert, under the next id and with its own name, email and age. |
| Seed.InsertFromOccurrences | python-generators-0x00/seed.py:110-127 | Insert `j` has the name, email and age of the `j`-th listed row, so inserts follow the file's order. |
| Seed.InsertFromInsertsAll | python-generators-0x00/seed.py:110-127 | Unless a statement raises, there is one insert per listed row. |
| Seed.InsertFromCoversCsv | python-generators-0x00/seed.py:110-127 | Without a failure, every first occurrence of a new email has an insert with that row's fields. |
| Seed.InsertFromInCsvOrder | python-generators-0x00/seed.py:110-127 | Of two inserts, the earlier one was made from an earlier row of the file. |
| Seed.InsertedEmails | python-generators-0x00/seed.py:110-127 | Without failures, the inserted emails are exactly the well-formed rows' emails minus those already known. |
| Seed.InsertData | python-generators-0x00/seed.py:101-135 | A failing `cursor()` raises before the file is opened: a database error with nothing inserted. A missing file inserts nothing, and an empty file raises on the header. The header is never inserted. Insert `j` carries the fields of the `j`-th data row that is well-formed and has a new email not seen on an earlier row. No insert repeats an existing email. The run commits, with every such row inserted, exactly when `cursor()`, `commit()` and every statement of a well-formed row succeed. |
| Seed.SeedKeepsEmailsUnique | python-generators-0x00/seed.py:117-129 | A committed run keeps emails unique. The table's emails become the old ones plus those of every well-formed data row. |
| Seed.SeedScenario | python-generators-0x00/seed.py:108-127 | The header, a malformed row and a duplicate email are skipped; the one new user is inserted and committed. |
| Seed.SessionFailureCommitsNothing | python-generators-0x00/seed.py:103-135 | A failing `cursor()` or `commit()` is caught as a driver error and leaves the table unchanged. |
| Seed.FirstRowWins | python-generators-0x00/seed.py:110-127 | Of two well-formed rows with one email, the first is inserted with its own name and age and the second is skipped. |
| DatabaseConnection.Init | python-context-async-perations-0x02/0-databaseconnection.py:12-14 | The name is remembered and no connection is set. |
| DatabaseConnection.Enter | python-context-async-perations-0x02/0-databaseconnection.py:16-19 | `__enter__` raises exactly when connecting does. Otherwise it opens exactly one connection. |
| DatabaseConnection.Exit | python-context-async-perations-0x02/0-databaseconnection.py:21-26 | `__exit__` closes the connection only if one was set, and never suppresses the exception. |
| DatabaseConnection.WithReleasesConnection | python-context-async-perations-0x02/0-databaseconnection.py:12-26 | An entered block opens the connection once, before the block, and closes it after. Its exception propagates. A failed connect runs nothing. |
| ExecuteQuery.Init | python-context-async-perations-0x02/1-execute.py:13-19 | Absent parameters become the empty tuple; connection, cursor and results start unset. |
| ExecuteQuery.Enter | python-context-async-perations-0x02/1-execute.py:21-27 | `__enter__` raises exactly when one of its steps does, keeping what it had already opened. On success it opens a connection and a cursor, executes the query once and returns every row. |
| ExecuteQuery.Exit | python-context-async-perations-0x02/1-execute.py:29-36 | `__exit__` closes the cursor before the connection, each only if it was set, and never suppresses the exception. |
| ExecuteQuery.EnteredBlockReleasesAll | python-context-async-perations-0x02/1-execute.py:21-36 | An entered block sees the fetched rows. The query runs once, before the block, and the cursor is closed before the connection. Everything is released and the block's exception propagates. |
| ExecuteQuery.EnterFailureLeaks | python-context-async-perations-0x02/1-execute.py:21-27 | When `__enter__` raises after connecting, `__exit__` never runs: the block does not run and what was opened stays open. |
| ChatPermissions.HasPermission | messaging_app/chats/permissions.py:11-13 | Granted exactly to a present, authenticated user. |
| ChatPermissions.HasObjectPermission | messaging_app/chats/permissions.py:15-32 | A conversation is granted exactly to its participants, and a message to those of its conversation; any other object is refused. |
| ChatPermissions.ObjectPermissionNeedsAuthentication | messaging_app/chats/permissions.py:11-32 | Object access implies request access: only authenticated users get objects. |
| ChatPermissions.MessageFollowsConversation | messaging_app/chats/permissions.py:27-30 | A message is accessible exactly when its conversation is. |
| ChatPermissions.FilterQuerysetForUser | messaging_app/chats/permissions.py:34-39 | Keeps exactly the conversations the user takes part in. |
| ChatPermissions.FilterAppend | messaging_app/chats/permissions.py:34-39 | The filter keeps queryset order: it distributes over concatenation. |
| ChatPermissions.FilterAgreesWithObjectPermission | messaging_app/chats/permissions.py:15-39 | A conversation survives the filter exactly when the object check would grant it. |
| MiddlewarePermissions.HasPermission | Django-Middleware-0x03/chats/permissions.py:9-11 | The same request check as the messaging app's. |
| MiddlewarePermissions.HasObjectPermission | Django-Middleware-0x03/chats/permissions.py:13-34 | Granted exactly for a safe or write method to a participant of the object's conversation. |
| MiddlewarePermissions.AgreesOnStandardMethods | Django-Middleware-0x03/chats/permissions.py:25-31 | On GET, HEAD, OPTIONS, POST, PUT, PATCH and DELETE it agrees with the messaging app's object check. |
| MiddlewarePermissions.OtherMethodsRefused | Django-Middleware-0x03/chats/permissions.py:33-34 | Any other method is refused, even to participants. |
| MiddlewarePermissions.NonParticipantRefused | Django-Middleware-0x03/chats/permissions.py:13-34 | A non-participant is refused whatever the method, for conversations and messages alike. |
| Text.Strip | messaging_app/chats/views.py:154 | `strip()` removes only leading and trailing whitespace: the result is an infix of the input framed by whitespace, and neither starts nor ends with whitespace. |
| Text.StripEmptyIffAllSpace | messaging_app/chats/views.py:154-156 | A stripped body is empty exactly when the input was all whitespace. |
| Text.StripIdempotent | messaging_app/chats/views.py:183-184 | Stripping twice changes nothing more. |
| Text.StripFixesTrimmed | messaging_app/chats/views.py:183-184 | `strip` leaves a string alone exactly when it neither starts nor ends with whitespace. |
| ChatViews.ConversationPermissions | messaging_app/chats/views.py:20-26 | Authentication is always checked; participation is added exactly for retrieve, update, partial_update and destroy. |
| ChatViews.MessagePermissions | messaging_app/chats/views.py:119-122 | Authentication is always checked; participation is added exactly for list, retrieve, update, partial_update, destroy and create. |
| ChatViews.PermissionListsCompared | messaging_app/chats/views.py:119-122 | The message list of checks agrees with the conversation list (line 24) on the conversation's actions, and also demands participation for list and create. A partial update is checked like an update. |
| ChatViews.ConversationGetObject | messaging_app/chats/views.py:96-110 | An unknown key gives NotFound. A known conversation is returned exactly when the action needs no participation or the user takes part; otherwise a ValidationError (400) is raised, not a 403. |
| ChatViews.ConversationRetrieve | messaging_app/chats/views.py:48-51 | Succeeds exactly for a participant of an existing conversation, returning it with the store unchanged. |
| ChatViews.ConversationCreate | messaging_app/chats/views.py:56-66 | Fails with the `participant_ids` ValidationError exactly when the list is missing or empty. Otherwise a new conversation has exactly the listed ids that name stored users as participants. |
| ChatViews.ConversationUpdate | messaging_app/chats/views.py:71-83 | Fails exactly for a missing conversation or a non-participant. A non-empty id list replaces the participants with the stored users among them; otherwise nothing changes. |
| ChatViews.ConversationDestroy | messaging_app/chats/views.py:88-91 | Fails exactly for a missing conversation or a non-participant. Otherwise the conversation and, by the cascade, exactly its messages are deleted; the other messages are untouched. |
| ChatViews.ConversationList | messaging_app/chats/views.py:31-42 | Lists exactly the user's conversations, narrowed by a non-empty `participant_id` to those that user also takes part in. |
| ChatViews.ListMatchesRetrieve | messaging_app/chats/views.py:31-51 | A conversation is listed exactly when its retrieval succeeds. |
| ChatViews.MessageGetObject | messaging_app/chats/views.py:204-219 | An unknown key gives NotFound. A known message is returned exactly when the action needs no participation or the user takes part in its conversation; otherwise a 403 Response is returned in place of the message. |
| ChatViews.MessageGetObjectFixed | messaging_app/chats/views.py:204-219 | Corrected helper: the same message is returned in the same cases, and a refusal raises PermissionDenied instead of returning a Response. |
| ChatViews.MessageRetrieveWith | messaging_app/chats/views.py:143-146 | Serves exactly a fetched message, with the store unchanged. A Response in its place is a 500. |
| ChatViews.BodyOf | messaging_app/chats/views.py:154 | A missing body reads as empty, a present one is stripped; either way the result is trimmed. |
| ChatViews.MessageUpdateWith | messaging_app/chats/views.py:181-191 | Only a fetched message is updated. A non-empty stripped body replaces its body and nothing else; an empty one leaves message and store as they were. A Response in its place is a 500. |
| ChatViews.MessageDestroyWith | messaging_app/chats/views.py:196-199 | Only a fetched message is deleted, and nothing else changes. A Response in its place is a 500. |
| ChatViews.MessageRetrieve | messaging_app/chats/views.py:143-146 | As written: served exactly to a participant of the message's conversation, unchanged store. An unknown key is a 404, and an outsider's request a 500. |
| ChatViews.MessageRetrieveFixed | messaging_app/chats/views.py:143-146 | Corrected: served in the same cases; an outsider gets PermissionDenied (403). |
| ChatViews.MessageUpdate | messaging_app/chats/views.py:181-191 | As written: succeeds exactly for a participant. A non-empty stripped body replaces only the body; an empty one changes nothing. An unknown key is a 404, and an outsider's request a 500. |
| ChatViews.MessageUpdateFixed | messaging_app/chats/views.py:181-191 | Corrected: the same successful updates; an outsider gets PermissionDenied (403). |
| ChatViews.MessageDestroy | messaging_app/chats/views.py:196-199 | As written: a participant's request deletes exactly that message. An unknown key is a 404, and an outsider's request a 500. |
| ChatViews.MessageDestroyFixed | messaging_app/chats/views.py:196-199 | Corrected: the same deletions; an outsider gets PermissionDenied (403). |
| ChatViews.OutsiderGetsServerError | messaging_app/chats/views.py:210-217 | As written, an outsider's retrieve, update or destroy of an existing message ends in a 500, never the 403. |
| ChatViews.OutsiderGetsForbidden | messaging_app/chats/views.py:210-217 | Corrected, the outsider gets PermissionDenied (403) from all three, while participants are served exactly as before. |
| ChatViews.MessageCreate | messaging_app/chats/views.py:151-176 | The required-fields ValidationError is raised exactly when the conversation (URL key first, else body field), the sender or the stripped body is empty. An unknown conversation is a 404 reported before an unknown sender. Given all three, with conversation and sender stored, it succeeds. On success exactly the new message, with the stripped body, is added. |
| ChatViews.CreateIgnoresRequester | messaging_app/chats/views.py:151-176 | As written, the outcome of creation does not depend on who makes the request. |
| ChatViews.OutsiderCanPost | messaging_app/chats/views.py:159-173 | As written, a stored user outside a conversation can post into it. |
| ChatViews.MessageCreateFixed | messaging_app/chats/views.py:120 | Corrected creation succeeds only for a participant of the target conversation, and then does exactly what the original does. |
| ChatViews.OutsiderCannotPost | messaging_app/chats/views.py:120 | Corrected creation refuses an outsider with PermissionDenied. |
| ChatViews.MessageList | messaging_app/chats/views.py:127-137 | Lists exactly the messages of the user's conversations, narrowed to one conversation by a non-empty URL key. |
| ChatViews.MessageListMatchesRetrieve | messaging_app/chats/views.py:127-146 | A message is listed exactly when the corrected retrieve serves it. |
| ChatViews.ConversationHandlersKeepValid | messaging_app/chats/views.py:56-91 | Conversation create, update and destroy keep the store invariant: keys match ids, participants and senders are stored users, every message has its conversation, and every body is non-empty and trimmed. |
| ChatViews.MessageCreateKeepsValid | messaging_app/chats/views.py:151-176 | Message creation, as written and corrected, keeps the store invariant. |
| ChatViews.MessageUpdateKeepsValid | messaging_app/chats/views.py:181-188 | A message update, as written and corrected, keeps the store invariant: only a stripped, non-empty body is written. |
| ChatViews.MessageDestroyKeepsValid | messaging_app/chats/views.py:196-199 | A message deletion, as written and corrected, keeps the store invariant. |
| ChatViews.OutsidersChangeNothing | messaging_app/chats/views.py:96-110 | Outsiders can neither update nor delete a conversation, nor update or delete its messages, with the message handlers as written or corrected. |

## Left out

- Database drivers, connection configuration, `.env` loading and printing: the result set is an abstract sequence of rows ending cleanly or in a driver error. Which driver errors occur where, and whether one drops the connection, is a parameter (`Tail`, `Fault`, `EnterFault`, `Opening`, `DbFaults` for the seed's `cursor()`, row statements and `commit()`). A connection is only ever lost through such an error.
- `uuid.uuid4()` and Django's UUID keys: fresh keys are parameters (`freshId`, `nextId`). Lookups with a malformed UUID string are not modelled.
- `time.sleep(delay)`: sleeps are counted in the trace, not timed. The log messages are left out.
- Float division and `:.2f` formatting in `calculate_average_age`: the result is kept as an exact (total, count) pair, with `MeanIs` for "the average is exactly v".
- `seed.py`'s connect, database and table creation: DDL and I/O only.
- `3-concurrent.py`: asyncio concurrency.
- Declarative Django wiring (`models.py`, `serializers.py`, `urls.py`, `pagination.py`, the middleware project's `filters.py`, `urls.py`, `middleware.py`). The cascade delete and the serializer's required `message_body` field are used where the views depend on them.
- `auth.py` (JWT issuance), the `GithubOrgClient` client and its tests, `test_utils.py`, `0-log_queries.py`, `4-cache_query.py` and `test-generators.py`: outside the modelled core.
- Transactions: each handler is one atomic step on the store.
- `hasattr` probing in `has_object_permission`: objects are a tagged variant, so an object with both `participants` and `conversation` cannot arise and the participants-first priority is built in.
- The middleware project's `filter_queryset_for_user` is the same one-liner as the messaging app's and is modelled once, as `ChatPermissions.FilterQuerysetForUser`.
- Error messages are tags (`Detail`); their texts appear only as comments beside the tags.
- Email duplicates are compared as exact strings; MySQL's case-insensitive collation is not modelled.
- StreamUsersInBatches: requires `batch_size >= 1`; what the driver does with `fetchmany(0)` or a negative size is not specified by the modelled code.
- FetchManyLoop: its own contract states the batch shape, that an exhausted set yields nothing and that a started loop has a reason to stop; coverage and the stopping facts are separate lemmas (`LoopStep`, `LoopCovers`, `LoopEnds`, `LoopHonoursDemand`, `LoopFullUnderError`).
- PagesFrom: its own contract only bounds each page; offsets and coverage are the separate lemmas `PagesFromOffsets` and `PagesFromAreChunks`. Laziness is not modelled: `LazyPaginate` is the drained generator, and a consumer stopping early sees a prefix of it.
- PaginateUsers: models the corrected query, with the page clause inside the SELECT. The query as written is modelled separately as `PaginateAsWritten.PaginateUsersAsWritten` (see Findings).
- PagesFromAreChunks: holds for the corrected query only; as written no page is a slice of the table (`PaginateAsWritten.FiveRowsAsWritten`).
- LastPage: holds for the corrected query only; as written there is no short last page.
- FullPageFirst: holds for the corrected query only; as written a page is `[]` or the whole table.
- LazyPaginateCoversTable: holds for the corrected query only; as written `lazy_paginate` yields nothing or never ends.
- LazyPaginatePageCount: holds for the corrected query only, for the same reason.
- FiveRowsInTwos: holds for the corrected query only; `PaginateAsWritten.FiveRowsAsWritten` gives the as-written outcome for the same table.
- PagesUpToFault: holds for the corrected query only; as written every page before a fault is `[]` or the whole table.
- FaultLooksLikeEndOfTable: holds for the corrected query only; as written, over a driver that rejects the trailing clause, even a healthy table looks empty.
- PagesAsWritten: a bounded number of rounds, because the as-written loop need not terminate. Which of the two drivers' readings applies is a parameter, since the driver is not modelled.
- ConversationList: returns a set of keys, not an ordered list; ordering and serialisation are not modelled. The same holds for MessageList.
- FetchUsersWithRetry: the SQL text is not modelled, only the outcome of each attempt (the parameter `b`). As written, the query `SELECT * cFROM users` is malformed, so every attempt raises OperationalError: the case `PersistentFailure` describes.
- ConversationGetObject: keeps the ValidationError (400) of the code for a refused participant check rather than a 403.

## Findings

| source | as written | input that shows it | evidently intended | confidence | as-written member | corrected member |
|---|---|---|---|---|---|---|
| messaging_app/chats/views.py:214-217 | `MessageViewSet.get_object` returns a 403 `Response` when the participant check fails, and retrieve, update and destroy then use it as a message | An authenticated user outside the conversation sends GET, PUT or DELETE for an existing message's key: the handler raises AttributeError, a 500 | Raise PermissionDenied, answered with 403 | not executed | ChatViews.OutsiderGetsServerError | ChatViews.OutsiderGetsForbidden |
| messaging_app/chats/views.py:120 | `create` is listed among the message actions that need participation, but `create` never calls `get_object`, so no object check runs | An authenticated user outside conversation C posts `conversation_id = C` with any stored `sender_id` and a non-blank body: the message is stored | Refuse a requester outside the target conversation with 403 | not executed | ChatViews.OutsiderCanPost | ChatViews.OutsiderCannotPost |
| python-generators-0x00/2-lazy_paginate.py:27-47 | `QUERY` ends in `;` and the page clause is appended after it, so the statement is `SELECT * FROM user_data; LIMIT P OFFSET o` | Any table and any page size, first page at offset 0: the driver either rejects the statement, so the page is `[]` and `lazy_paginate` yields nothing, or returns the whole table, so the loop never ends | `SELECT * FROM user_data LIMIT P OFFSET o`, whose pages are the table's chunks | not executed | PaginateAsWritten.FiveRowsAsWritten | LazyPaginate.LazyPaginateCoversTable |

=== FILE: base.dfy ===
/** Small shared vocabulary: an optional value and sequence helpers. */
module Base {

  datatype Option<+T> = None | Some(value: T)

  function Min(a: int, b: int): int
  {
    if a <= b then a else b
  }

  /** Concatenation of a sequence of sequences, in order. */
  function Flatten<T>(xss: seq<seq<T>>): seq<T>
  {
    if |xss| == 0 then [] else xss[0] + Flatten(xss[1..])
  }

  /** Flattening a sequence with one more sequence in front. */
  lemma FlattenCons<T>(xs: seq<T>, xss: seq<seq<T>>)
    ensures Flatten([xs] + xss) == xs + Flatten(xss)
  {
    assert ([xs] + xss)[1..] == xss;
  }

  /** A slice split at an inner index is the two slices on either side. */
  lemma SliceSplit<T>(a: seq<T>, i: nat, j: nat, k: nat)
    requires i <= j <= k <= |a|
    ensures a[i..k][..j - i] == a[i..j] && a[i..k][j - i..] == a[j..k]
    ensures a[i..k] == a[i..j] + a[j..k]
  {
  }
}

=== FILE: batch_processing.dfy ===
/**
 * `stream_users_in_batches`: a generator yielding `fetchmany(batch_size)`
 * chunks of `SELECT * FROM user_data`, and `batch_processing`, which keeps
 * the users of each batch whose age exceeds 25.
 */
module BatchProcessing {
  import opened Base
  import opened Rows
  import opened Cursor
  import opened Chunking

  /**
   * The `while True` fetchmany loop, entered at row position `pos` after `k`
   * batches were yielded; an empty `fetchmany` result breaks out of it, so
   * every yielded batch holds 1 to `size` rows and only the last may be short.
   */
  function FetchManyLoop(rs: ResultSet<Row>, pos: nat, size: nat, d: Demand, k: nat): (r: Run<seq<Row>>)
    requires size >= 1 && pos <= |rs.rows|
    ensures pos == |rs.rows| ==> r.items == []
    ensures r.ending != NeverStarted
    ensures Batched(r.items, size)
    decreases |rs.rows| - pos
  {
    if Satisfied(d, k) then Run([], Abandoned)
    else
      var f := FetchMany(rs, pos, size);
      if f.Raises? then Run([], Swallowed)
      else if |f.item| == 0 then Run([], EndOfRows)
      else
        var rest := FetchManyLoop(rs, pos + |f.item|, size, d, k + 1);
        BatchedCons(f.item, rest.items, size);
        Run([f.item] + rest.items, rest.ending)
  }

  /**
   * When the loop yields anything, it first yields the next `size` rows (or
   * what is left of a cleanly ended set) and then carries on right after them.
   */
  lemma LoopStep(rs: ResultSet<Row>, pos: nat, size: nat, d: Demand, k: nat)
    requires size >= 1 && pos <= |rs.rows|
    requires FetchManyLoop(rs, pos, size, d, k).items != []
    ensures var next := Min(pos + size, |rs.rows|);
            var r := FetchManyLoop(rs, pos, size, d, k);
            var rest := FetchManyLoop(rs, next, size, d, k + 1);
            && pos < next
            && !Satisfied(d, k)
            && (next < pos + size ==> rs.tail == EndOfSet)
            && r.items == [rs.rows[pos..next]] + rest.items
            && r.ending == rest.ending
  {
  }

  /** The batches are consecutive rows of the result, starting at `pos`. */
  lemma {:induction false} LoopCovers(rs: ResultSet<Row>, pos: nat, size: nat, d: Demand, k: nat)
    requires size >= 1 && pos <= |rs.rows|
    ensures Covers(rs.rows, pos, FetchManyLoop(rs, pos, size, d, k).items)
    decreases |rs.rows| - pos
  {
    if FetchManyLoop(rs, pos, size, d, k).items != [] {
      LoopStep(rs, pos, size, d, k);
      var next := Min(pos + size, |rs.rows|);
      LoopCovers(rs, next, size, d, k + 1);
      CoversCons(rs.rows, pos, next, FetchManyLoop(rs, next, size, d, k + 1).items);
    }
  }

  /** Over a result set that ends in a driver error, every batch is full. */
  lemma {:induction false} LoopFullUnderError(rs: ResultSet<Row>, pos: nat, size: nat, d: Demand, k: nat)
    requires size >= 1 && pos <= |rs.rows|
    ensures rs.tail.DriverError? ==> AllFull(FetchManyLoop(rs, pos, size, d, k).items, size)
    decreases |rs.rows| - pos
  {
    if rs.tail.DriverError? && FetchManyLoop(rs, pos, size, d, k).items != [] {
      LoopStep(rs, pos, size, d, k);
      var next := Min(pos + size, |rs.rows|);
      LoopFullUnderError(rs, next, size, d, k + 1);
      AllFullCons(rs.rows[pos..next], FetchManyLoop(rs, next, size, d, k + 1).items, size);
    }
  }

  /** A consumer taking `n` batches never receives more than `n`. */
  lemma {:induction false} LoopHonoursDemand(rs: ResultSet<Row>, pos: nat, size: nat, d: Demand, k: nat)
    requires size >= 1 && pos <= |rs.rows|
    ensures d.Take? && k <= d.n ==> k + |FetchManyLoop(rs, pos, size, d, k).items| <= d.n
    decreases |rs.rows| - pos
  {
    if d.Take? && k <= d.n && FetchManyLoop(rs, pos, size, d, k).items != [] {
      LoopStep(rs, pos, size, d, k);
      LoopHonoursDemand(rs, Min(pos + size, |rs.rows|), size, d, k + 1);
    }
  }

  /**
   * Why the loop stopped, with `stop` the row position it reached: the rows
   * ran out on a clean end of set, a driver error was swallowed once fewer
   * than `size` rows were left, or the consumer had taken what it wanted.
   */
  predicate StoppedBecause(rs: ResultSet<Row>, stop: nat, size: nat, d: Demand, taken: nat, ending: Ending)
  {
    && (ending == EndOfRows ==> stop == |rs.rows| && rs.tail == EndOfSet)
    && (ending == Swallowed ==> rs.tail.DriverError? && stop + size > |rs.rows|)
    && (ending == Abandoned ==> Satisfied(d, taken))
  }

  lemma {:induction false} LoopEnds(rs: ResultSet<Row>, pos: nat, size: nat, d: Demand, k: nat)
    requires size >= 1 && pos <= |rs.rows|
    ensures var r := FetchManyLoop(rs, pos, size, d, k);
            StoppedBecause(rs, pos + |Flatten(r.items)|, size, d, k + |r.items|, r.ending)
    decreases |rs.rows| - pos
  {
    var r := FetchManyLoop(rs, pos, size, d, k);
    if r.items != [] {
      LoopStep(rs, pos, size, d, k);
      var next := Min(pos + size, |rs.rows|);
      var rest := FetchManyLoop(rs, next, size, d, k + 1);
      LoopEnds(rs, next, size, d, k + 1);
      FlattenCons(rs.rows[pos..next], rest.items);
      assert pos + |Flatten(r.items)| == next + |Flatten(rest.items)|;
      assert k + |r.items| == k + 1 + |rest.items|;
    }
  }

  /**
   * The generator with its `with` blocks: a refused connection is caught as
   * a driver error; a connection that is not connected raises
   * `ConnectionError` inside the connection's `with`, which closes it; the
   * cursor's and connection's `with` blocks close both on every other path.
   * Whatever happens, the consumer gets well-shaped batches of a prefix of
   * the result.
   */
  function StreamUsersInBatches(conn: Connect, rs: ResultSet<Row>, size: nat, d: Demand): (r: Stream<seq<Row>>)
    requires size >= 1
    ensures Batched(r.items, size)
    ensures Covers(rs.rows, 0, r.items)
    ensures conn != Connected ==> r.items == []
    ensures d.Take? ==> |r.items| <= d.n
    ensures conn == Connected && d != Take(0) ==> r.ending != NeverStarted
    ensures conn == Connected ==> StoppedBecause(rs, |Flatten(r.items)|, size, d, |r.items|, r.ending)
    ensures conn == Connected && rs.tail.DriverError? ==> AllFull(r.items, size)
    ensures r.cursorClosed == (conn == Connected && d != Take(0))
    ensures r.connectionClosed == (conn != Refused && d != Take(0))
  {
    if d == Take(0) then Stream([], NeverStarted, false, false)
    else
      match conn
      case Refused => Stream([], Swallowed, false, false)
      case Disconnected => Stream([], Swallowed, false, true)
      case Connected =>
        var run := FetchManyLoop(rs, 0, size, d, 0);
        LoopCovers(rs, 0, size, d, 0);
        LoopEnds(rs, 0, size, d, 0);
        LoopHonoursDemand(rs, 0, size, d, 0);
        LoopFullUnderError(rs, 0, size, d, 0);
        Stream(run.items, run.ending, true, true)
  }

  /**
   * Draining the batches of a healthy result set reproduces it exactly:
   * the batches are its chunks of `size` rows, ceil(N / size) of them.
   */
  lemma BatchesReproduceResult(rs: ResultSet<Row>, size: nat)
    requires size >= 1 && rs.tail == EndOfSet
    ensures StreamUsersInBatches(Connected, rs, size, All).ending == EndOfRows
    ensures StreamUsersInBatches(Connected, rs, size, All).items == Chunks(rs.rows, size)
    ensures Flatten(StreamUsersInBatches(Connected, rs, size, All).items) == rs.rows
    ensures var n := |StreamUsersInBatches(Connected, rs, size, All).items|;
            (n - 1) * size < |rs.rows| <= n * size
  {
    var r := StreamUsersInBatches(Connected, rs, size, All);
    assert |Flatten(r.items)| == |rs.rows|;
    assert rs.rows[..|rs.rows|] == rs.rows;
    ChunksUnique(r.items, size);
    ChunksCount(rs.rows, size);
  }

  /**
   * A driver error ends the stream quietly: the consumer gets full batches
   * covering a prefix of the result that is less than one batch short of it.
   */
  lemma BatchesBeforeError(rs: ResultSet<Row>, size: nat)
    requires size >= 1 && rs.tail.DriverError?
    ensures var r := StreamUsersInBatches(Connected, rs, size, All);
            var seen := |Flatten(r.items)|;
            && r.ending == Swallowed
            && |rs.rows| - size < seen <= |rs.rows|
            && r.items == Chunks(rs.rows[..seen], size)
            && AllFull(r.items, size)
  {
    var r := StreamUsersInBatches(Connected, rs, size, All);
    ChunksUnique(r.items, size);
  }

  /** Seven rows fetched three at a time arrive as batches of 3, 3 and 1 rows. */
  lemma SevenRowsInThrees(rs: ResultSet<Row>)
    requires |rs.rows| == 7 && rs.tail == EndOfSet
    ensures var b := StreamUsersInBatches(Connected, rs, 3, All).items;
            |b| == 3 && |b[0]| == 3 && |b[1]| == 3 && |b[2]| == 1
  {
    BatchesReproduceResult(rs, 3);
    var s := rs.rows;
    ChunksFirst(s, 3);
    ChunksFirst(s[3..], 3);
    ChunksShort(s[3..][3..], 3);
  }

  /** `user.get('age', 0)`: a number to compare, or a value `> 25` rejects. */
  datatype AgeKey = Number(n: int) | Incomparable

  function AgeOf(user: Row): AgeKey
  {
    if "age" !in user then Number(0)
    else match user["age"]
      case Int(i) => Number(i)
      case _ => Incomparable
  }

  predicate Comparable(user: Row)
  {
    AgeOf(user).Number?
  }

  predicate Over25(user: Row)
  {
    AgeOf(user).Number? && AgeOf(user).n > 25
  }

  /**
   * The list comprehension `[user for user in batch if user.get('age', 0) > 25]`:
   * None when some age cannot be compared with 25 (a TypeError in Python).
   */
  function KeepOver25(batch: seq<Row>): (r: Option<seq<Row>>)
    ensures r.Some? <==> forall i :: 0 <= i < |batch| ==> Comparable(batch[i])
    ensures r.Some? ==> |r.value| <= |batch|
    ensures r.Some? ==> forall u :: u in r.value <==> u in batch && Over25(u)
  {
    if |batch| == 0 then Some([])
    else
      match KeepOver25(batch[1..])
      case None => None
      case Some(rest) =>
        if !Comparable(batch[0]) then None
        else if Over25(batch[0]) then Some([batch[0]] + rest)
        else Some(rest)
  }

  /** Filtering a row in front of a batch: that row's verdict, then the batch's. */
  lemma KeepOver25Cons(u: Row, s: seq<Row>)
    ensures KeepOver25([u] + s) ==
              if KeepOver25(s).None? || !Comparable(u) then None
              else if Over25(u) then Some([u] + KeepOver25(s).value)
              else KeepOver25(s)
  {
    assert ([u] + s)[0] == u;
    assert ([u] + s)[1..] == s;
  }

  /** Filtering a concatenation filters each part and keeps their order. */
  lemma {:induction false} KeepOver25Append(a: seq<Row>, b: seq<Row>)
    requires KeepOver25(a).Some? && KeepOver25(b).Some?
    ensures KeepOver25(a + b) == Some(KeepOver25(a).value + KeepOver25(b).value)
  {
    if |a| == 0 {
      assert a == [];
      assert a + b == b;
      assert KeepOver25(a) == Some([]);
      assert [] + KeepOver25(b).value == KeepOver25(b).value;
    } else {
      var u, tail := a[0], a[1..];
      assert a == [u] + tail;
      assert a + b == [u] + (tail + b);
      KeepOver25Cons(u, tail);
      KeepOver25Cons(u, tail + b);
      KeepOver25Append(tail, b);
      var kt, kb := KeepOver25(tail).value, KeepOver25(b).value;
      if Over25(u) {
        assert [u] + (kt + kb) == ([u] + kt) + kb;
      }
    }
  }

  /** What `batch_processing` prints: one filtered list per batch, until a TypeError. */
  datatype Processed = Processed(reports: seq<seq<Row>>, raised: bool)

  /**
   * The `for batch in ...` loop: one report per batch, in order, up to the
   * first batch whose filter raises, which ends the loop.
   */
  function ProcessBatches(batches: seq<seq<Row>>): (r: Processed)
    ensures |r.reports| <= |batches|
    ensures forall i :: 0 <= i < |r.reports| ==> KeepOver25(batches[i]) == Some(r.reports[i])
    ensures !r.raised <==> |r.reports| == |batches|
    ensures r.raised ==> KeepOver25(batches[|r.reports|]).None?
  {
    if |batches| == 0 then Processed([], false)
    else
      match KeepOver25(batches[0])
      case None => Processed([], true)
      case Some(kept) =>
        var rest := ProcessBatches(batches[1..]);
        Processed([kept] + rest.reports, rest.raised)
  }

  /**
   * `batch_processing(batch_size)` drains the batch generator and filters
   * each batch. Whatever prefix of the result the generator streamed, the
   * reports together are that prefix's users over 25, in order, and a
   * TypeError escapes exactly when one of its ages cannot be compared.
   */
  function BatchProcessing(conn: Connect, rs: ResultSet<Row>, size: nat): (r: Processed)
    requires size >= 1
    ensures var streamed := Flatten(StreamUsersInBatches(conn, rs, size, All).items);
            && streamed == rs.rows[..|streamed|]
            && (conn != Connected ==> r == Processed([], false))
            && (r.raised <==> KeepOver25(streamed).None?)
            && (!r.raised ==> KeepOver25(streamed) == Some(Flatten(r.reports)))
  {
    var batches := StreamUsersInBatches(conn, rs, size, All).items;
    ProcessBatchesMatchesWholeFilter(batches);
    ProcessBatches(batches)
  }

  /**
   * Filtering batch by batch finds exactly the users over 25 of the rows
   * streamed, in their result order; a TypeError is raised exactly when one
   * of those rows has an age that cannot be compared.
   */
  lemma {:induction false} ProcessBatchesMatchesWholeFilter(batches: seq<seq<Row>>)
    ensures !ProcessBatches(batches).raised <==> KeepOver25(Flatten(batches)).Some?
    ensures !ProcessBatches(batches).raised ==>
              KeepOver25(Flatten(batches)) == Some(Flatten(ProcessBatches(batches).reports))
  {
    if |batches| > 0 {
      ProcessBatchesMatchesWholeFilter(batches[1..]);
      var r := ProcessBatches(batches);
      var rest := ProcessBatches(batches[1..]);
      assert Flatten(batches) == batches[0] + Flatten(batches[1..]);
      KeepOver25Split(batches[0], Flatten(batches[1..]));
      if !r.raised {
        assert r.reports == [KeepOver25(batches[0]).value] + rest.reports;
        assert r.reports[1..] == rest.reports;
        KeepOver25Append(batches[0], Flatten(batches[1..]));
      }
    }
  }

  /** A concatenation can be filtered exactly when both parts can. */
  lemma KeepOver25Split(a: seq<Row>, b: seq<Row>)
    ensures KeepOver25(a + b).Some? <==> KeepOver25(a).Some? && KeepOver25(b).Some?
  {
    if KeepOver25(a).Some? && KeepOver25(b).Some? {
      forall i | 0 <= i < |a + b| ensures Comparable((a + b)[i]) {
        if i < |a| {
          assert (a + b)[i] == a[i];
        } else {
          assert (a + b)[i] == b[i - |a|];
        }
      }
    }
    if KeepOver25(a + b).Some? {
      forall i | 0 <= i < |a| ensures Comparable(a[i]) {
        assert (a + b)[i] == a[i];
      }
      forall i | 0 <= i < |b| ensures Comparable(b[i]) {
        assert (a + b)[i + |a|] == b[i];
      }
    }
  }

  /**
   * Over a healthy result set, `batch_processing` reports, batch after batch,
   * exactly the users of the whole table whose age exceeds 25, in table order.
   */
  lemma BatchProcessingFindsOver25(rs: ResultSet<Row>, size: nat)
    requires size >= 1 && rs.tail == EndOfSet
    requires forall i :: 0 <= i < |rs.rows| ==> Comparable(rs.rows[i])
    ensures !BatchProcessing(Connected, rs, size).raised
    ensures KeepOver25(rs.rows) == Some(Flatten(BatchProcessing(Connected, rs, size).reports))
  {
    BatchesReproduceResult(rs, size);
    ProcessBatchesMatchesWholeFilter(StreamUsersInBatches(Connected, rs, size, All).items);
  }
}

=== FILE: chat_permissions.dfy ===
/** `IsParticipantOfConversation` of the messaging app. */
module ChatPermissions {
  import opened Chats

  /** `has_permission`: `request.user and request.user.is_authenticated`. */
  function HasPermission(u: Requester): (r: bool)
    ensures r <==> u.Member?
  {
    match u
    case NoUser => false
    case Anonymous => false
    case Member(_) => true
  }

  /**
   * `has_object_permission`: an object with participants is a conversation,
   * an object with a conversation is a message and inherits that
   * conversation's participants; anything else is refused.
   */
  function HasObjectPermission(u: Requester, t: Target): (r: bool)
    ensures t.ConversationTarget? ==> (r <==> IsParticipant(u, t.conversation))
    ensures t.MessageTarget? ==> (r <==> IsParticipant(u, t.parent))
    ensures t.OtherTarget? ==> !r
  {
    match t
    case ConversationTarget(c) => u.Member? && u.id in c.participants
    case MessageTarget(_, c) => u.Member? && u.id in c.participants
    case OtherTarget => false
  }

  /** Object access is only ever granted to an authenticated user. */
  lemma ObjectPermissionNeedsAuthentication(u: Requester, t: Target)
    ensures HasObjectPermission(u, t) ==> HasPermission(u)
  {
  }

  /** A message is accessible exactly to the participants of its conversation. */
  lemma MessageFollowsConversation(u: Requester, m: Message, c: Conversation)
    ensures HasObjectPermission(u, MessageTarget(m, c)) == HasObjectPermission(u, ConversationTarget(c))
  {
  }

  /**
   * `filter_queryset_for_user`: `queryset.filter(participants=user)` keeps
   * the conversations the user takes part in, in queryset order.
   */
  function FilterQuerysetForUser(qs: seq<Conversation>, user: Id): (r: seq<Conversation>)
    ensures |r| <= |qs|
    ensures forall c :: c in r <==> c in qs && user in c.participants
  {
    if |qs| == 0 then []
    else
      var rest := FilterQuerysetForUser(qs[1..], user);
      assert forall c :: c in qs <==> c == qs[0] || c in qs[1..];
      if user in qs[0].participants then [qs[0]] + rest else rest
  }

  /** Filtering keeps the queryset order: it distributes over concatenation. */
  lemma {:induction false} FilterAppend(a: seq<Conversation>, b: seq<Conversation>, user: Id)
    ensures FilterQuerysetForUser(a + b, user) == FilterQuerysetForUser(a, user) + FilterQuerysetForUser(b, user)
  {
    if |a| == 0 {
      assert a + b == b;
    } else {
      assert (a + b)[0] == a[0];
      assert (a + b)[1..] == a[1..] + b;
      FilterAppend(a[1..], b, user);
    }
  }

  /**
   * The queryset filter and the object check agree: a conversation is kept
   * exactly when the user would be granted access to it.
   */
  lemma FilterAgreesWithObjectPermission(qs: seq<Conversation>, user: Id, c: Conversation)
    ensures c in FilterQuerysetForUser(qs, user) <==> c in qs && HasObjectPermission(Member(user), ConversationTarget(c))
  {
  }
}

=== FILE: chats.dfy ===
/**
 * The entities of the messaging API: users, conversations with a set of
 * participants, and messages that belong to one conversation and one sender.
 * Primary keys are UUIDs; here they are opaque strings.
 */
module Chats {

  type Id = string

  /** `request.user`: absent, Django's anonymous user, or a logged-in user. */
  datatype Requester = NoUser | Anonymous | Member(id: Id)

  datatype Conversation = Conversation(id: Id, participants: set<Id>)

  /** A stored message refers to its conversation and sender by key. */
  datatype Message = Message(id: Id, conversation: Id, sender: Id, body: string)

  /**
   * The object a permission is asked about: a conversation, a message
   * together with the conversation it belongs to, or any other object.
   */
  datatype Target =
    | ConversationTarget(conversation: Conversation)
    | MessageTarget(message: Message, parent: Conversation)
    | OtherTarget

  /** The database as the views see it. */
  datatype Store = Store(users: set<Id>, conversations: map<Id, Conversation>, messages: map<Id, Message>)

  /**
   * `user in conversation.participants.all()`: neither a missing user nor
   * the anonymous user equals any stored user.
   */
  predicate IsParticipant(u: Requester, c: Conversation)
  {
    u.Member? && u.id in c.participants
  }
}

=== FILE: chunking.dfy ===
/**
 * Splitting a sequence into consecutive chunks of a fixed size, the shape
 * both `fetchmany` batching and LIMIT/OFFSET pagination produce.
 */
module Chunking {
  import opened Base

  /** Every batch holds 1 to `size` elements and every batch but the last is full. */
  predicate Batched<T>(xss: seq<seq<T>>, size: nat)
  {
    && (forall i :: 0 <= i < |xss| ==> 1 <= |xss[i]| <= size)
    && (forall i :: 0 <= i < |xss| - 1 ==> |xss[i]| == size)
  }

  /** Every batch holds exactly `size` elements. */
  predicate AllFull<T>(xss: seq<seq<T>>, size: nat)
  {
    forall i :: 0 <= i < |xss| ==> |xss[i]| == size
  }

  /** The batches, concatenated, are the elements of `s` from position `pos` on. */
  predicate Covers<T(==)>(s: seq<T>, pos: nat, xss: seq<seq<T>>)
  {
    pos + |Flatten(xss)| <= |s| && Flatten(xss) == s[pos..pos + |Flatten(xss)|]
  }

  /** Consecutive chunks of `size` elements, in order; only the last may be shorter. */
  function Chunks<T>(s: seq<T>, size: nat): (r: seq<seq<T>>)
    requires size >= 1
    ensures Batched(r, size)
    ensures Flatten(r) == s
    decreases |s|
  {
    if |s| == 0 then []
    else
      var n := Min(size, |s|);
      var rest := Chunks(s[n..], size);
      BatchedCons(s[..n], rest, size);
      FlattenCons(s[..n], rest);
      assert s[..n] + s[n..] == s;
      [s[..n]] + rest
  }

  /** The chunks of a sequence at least one chunk long start with its first `size` elements. */
  lemma ChunksFirst<T>(s: seq<T>, size: nat)
    requires size >= 1 && |s| >= size
    ensures Chunks(s, size) == [s[..size]] + Chunks(s[size..], size)
  {
  }

  /** A sequence of at most `size` elements is a single chunk. */
  lemma ChunksShort<T>(s: seq<T>, size: nat)
    requires size >= 1 && 1 <= |s| <= size
    ensures Chunks(s, size) == [s]
  {
    assert s[..|s|] == s;
    assert Chunks(s[|s|..], size) == [];
  }

  /** One more batch in front keeps the shape, provided only the last batch is short. */
  lemma BatchedCons<T>(xs: seq<T>, xss: seq<seq<T>>, size: nat)
    requires 1 <= |xs| <= size && (xss != [] ==> |xs| == size)
    requires Batched(xss, size)
    ensures Batched([xs] + xss, size)
  {
    var items := [xs] + xss;
    forall i | 0 < i < |items| ensures items[i] == xss[i - 1] {
    }
  }

  /** One more full batch in front keeps every batch full. */
  lemma AllFullCons<T>(xs: seq<T>, xss: seq<seq<T>>, size: nat)
    requires |xs| == size && AllFull(xss, size)
    ensures AllFull([xs] + xss, size)
  {
    var items := [xs] + xss;
    forall i | 0 < i < |items| ensures items[i] == xss[i - 1] {
    }
  }

  /** A slice followed by batches covering what comes right after it covers from its start. */
  lemma CoversCons<T>(s: seq<T>, pos: nat, next: nat, xss: seq<seq<T>>)
    requires pos <= next <= |s| && Covers(s, next, xss)
    ensures Covers(s, pos, [s[pos..next]] + xss)
  {
    FlattenCons(s[pos..next], xss);
    SliceSplit(s, pos, next, next + |Flatten(xss)|);
  }

  /** `(m + 1) * size` in linear terms. */
  lemma MulSucc(m: int, size: int)
    ensures (m + 1) * size == m * size + size
  {
  }

  /**
   * There are ceil(|s| / size) chunks, stated without division: the chunks
   * minus one do not cover `s`, and all of them do.
   */
  lemma {:induction false} ChunksCount<T>(s: seq<T>, size: nat)
    requires size >= 1
    ensures (|Chunks(s, size)| - 1) * size < |s| <= |Chunks(s, size)| * size
    decreases |s|
  {
    if |s| == 0 {
      assert |Chunks(s, size)| == 0;
    } else if |s| <= size {
      assert |Chunks(s, size)| == 1;
    } else {
      ChunksFirst(s, size);
      ChunksCount(s[size..], size);
      var m := |Chunks(s[size..], size)|;
      assert |Chunks(s, size)| == m + 1;
      MulSucc(m, size);
      MulSucc(m - 1, size);
    }
  }

  /**
   * Chunking is the only way to cut a sequence into non-empty pieces of at
   * most `size` elements where every piece but the last is full.
   */
  lemma {:induction false} ChunksUnique<T>(xss: seq<seq<T>>, size: nat)
    requires size >= 1 && Batched(xss, size)
    ensures xss == Chunks(Flatten(xss), size)
  {
    if |xss| == 0 {
    } else {
      var s := Flatten(xss);
      var tail := Flatten(xss[1..]);
      assert s == xss[0] + tail;
      assert Batched(xss[1..], size) by {
        forall i | 0 <= i < |xss| - 1 ensures xss[1..][i] == xss[i + 1] {
        }
      }
      ChunksUnique(xss[1..], size);
      if |xss| == 1 {
        assert tail == [];
        assert s == xss[0];
        assert Chunks(s[|s|..], size) == [];
      } else {
        assert |xss[0]| == size;
        assert Min(size, |s|) == size;
        assert s[..size] == xss[0];
        assert s[size..] == tail;
      }
    }
  }
}

=== FILE: context_managers.dfy ===
/**
 * The resource steps a `with` block over a database context manager takes,
 * and how its outcome is decided. Only completed steps enter a trace: a
 * step that raises leaves no mark.
 */
module Lifecycle {
  import opened Rows

  datatype Resource = Connection | Cursor

  datatype Step =
    | Open(resource: Resource)
    | Close(resource: Resource)
    | Execute(query: string, params: seq<Value>)
    | FetchAll
    | RunBody

  /** A manager attribute: still `None`, holding a live object, or holding a closed one. */
  datatype Handle = Unset | Live | Released

  /** Where an exception leaving the `with` statement came from. */
  datatype Source = FromEnter | FromBody

  datatype Outcome = Completed | Propagates(source: Source)

  /** `a` happens in `trace`, and some `b` happens after it. */
  predicate Before(trace: seq<Step>, a: Step, b: Step)
  {
    exists i, j :: 0 <= i < j < |trace| && trace[i] == a && trace[j] == b
  }

  /** Every opened resource is closed later in the trace. */
  predicate AllReleased(trace: seq<Step>)
  {
    forall r: Resource :: Open(r) in trace ==> Before(trace, Open(r), Close(r))
  }

  /** How many times `s` happens in `trace`. */
  function Occurrences(trace: seq<Step>, s: Step): nat
  {
    |set i | 0 <= i < |trace| && trace[i] == s|
  }

  /** A step found at one position of a trace and nowhere else happens once. */
  lemma OnlyAt(trace: seq<Step>, i: nat, s: Step)
    requires i < |trace| && trace[i] == s
    requires forall j :: 0 <= j < |trace| && j != i ==> trace[j] != s
    ensures Occurrences(trace, s) == 1
  {
    assert (set j | 0 <= j < |trace| && trace[j] == s) == {i};
  }

  /** Two positions of a trace, in order, witness `Before`. */
  lemma BeforeAt(trace: seq<Step>, i: nat, j: nat)
    requires i < j < |trace|
    ensures Before(trace, trace[i], trace[j])
  {
  }
}

/**
 * `DatabaseConnection(db_name)`: `__enter__` opens one sqlite connection and
 * hands it to the block; `__exit__` closes it if one was opened and
 * returns False, so nothing raised in the block is swallowed.
 */
module DatabaseConnection {
  import opened Lifecycle

  datatype Manager = Manager(dbName: string, conn: Handle)

  /** `__init__`: remembers the name; no connection yet. */
  function Init(dbName: string): (m: Manager)
    ensures m.dbName == dbName && m.conn == Unset
  {
    Manager(dbName, Unset)
  }

  datatype Entered = Entered(manager: Manager, steps: seq<Step>, raised: bool)

  /** `__enter__`: `sqlite3.connect` either raises or yields a live connection. */
  function Enter(m: Manager, connectFails: bool): (r: Entered)
    ensures r.raised == connectFails
    ensures r.raised ==> r.manager == m && r.steps == []
    ensures !r.raised ==> r.manager == m.(conn := Live) && r.steps == [Open(Connection)]
  {
    if connectFails then Entered(m, [], true)
    else Entered(m.(conn := Live), [Open(Connection)], false)
  }

  datatype Exited = Exited(manager: Manager, steps: seq<Step>, suppress: bool)

  /**
   * `__exit__`: a connection object is always truthy, so any connection that
   * was opened is closed (again, if need be); `None` is left alone.
   */
  function Exit(m: Manager): (r: Exited)
    ensures !r.suppress
    ensures r.steps == (if m.conn == Unset then [] else [Close(Connection)])
    ensures r.manager.conn == (if m.conn == Unset then Unset else Released)
  {
    if m.conn != Unset then Exited(m.(conn := Released), [Close(Connection)], false)
    else Exited(m, [], false)
  }

  datatype Run = Run(trace: seq<Step>, outcome: Outcome, manager: Manager)

  /**
   * `with DatabaseConnection(db_name) as conn: <block>`. When `__enter__`
   * raises, `__exit__` is not called and the error propagates; otherwise
   * the block runs, `__exit__` always runs, and the block's exception, if
   * any, propagates because `__exit__` returned False.
   */
  function With(dbName: string, connectFails: bool, bodyRaises: bool): (r: Run)
  {
    var e := Enter(Init(dbName), connectFails);
    if e.raised then Run(e.steps, Propagates(FromEnter), e.manager)
    else
      var x := Exit(e.manager);
      var outcome := if bodyRaises && !x.suppress then Propagates(FromBody) else Completed;
      Run(e.steps + [RunBody] + x.steps, outcome, x.manager)
  }

  /**
   * A block that was entered always ends with its connection closed, opened
   * once and closed after the block, whatever the block did; its exception
   * is never swallowed. A failed connect runs nothing.
   */
  lemma WithReleasesConnection(dbName: string, connectFails: bool, bodyRaises: bool)
    ensures var r := With(dbName, connectFails, bodyRaises);
            && AllReleased(r.trace)
            && (connectFails ==> r.trace == [] && r.outcome == Propagates(FromEnter))
            && (!connectFails ==>
                  && Before(r.trace, Open(Connection), RunBody)
                  && Before(r.trace, RunBody, Close(Connection))
                  && r.manager.conn == Released
                  && Occurrences(r.trace, Open(Connection)) == 1
                  && (r.outcome == Propagates(FromBody) <==> bodyRaises))
  {
    var r := With(dbName, connectFails, bodyRaises);
    if !connectFails {
      assert r.trace == [Open(Connection), RunBody, Close(Connection)];
      assert r.trace[0] == Open(Connection) && r.trace[1] == RunBody && r.trace[2] == Close(Connection);
      OnlyAt(r.trace, 0, Open(Connection));
    }
  }
}

/**
 * `ExecuteQuery(db_name, query, params)`: `__enter__` opens a connection and
 * a cursor, executes the query once with the parameters and hands the block
 * every fetched row; `__exit__` closes the cursor and then the connection,
 * each only if it was set, and returns False.
 */
module ExecuteQuery {
  import opened Base
  import opened Rows
  import opened Lifecycle

  datatype Manager = Manager(
    dbName: string, query: string, params: seq<Value>,
    conn: Handle, cursor: Handle, results: Option<seq<Row>>)

  /** `__init__`: absent (or empty) parameters become the empty tuple; nothing is open. */
  function Init(dbName: string, query: string, params: Option<seq<Value>>): (m: Manager)
    ensures m.conn == Unset && m.cursor == Unset && m.results == None
    ensures m.dbName == dbName && m.query == query
    ensures params.None? ==> m.params == []
    ensures params.Some? ==> m.params == params.value
  {
    Manager(dbName, query, if params.Some? then params.value else [], Unset, Unset, None)
  }

  /** Which step of `__enter__` raises, if any. */
  datatype EnterFault = NoFault | ConnectFails | CursorFails | ExecuteFails | FetchFails

  datatype Entered = Entered(manager: Manager, steps: seq<Step>, raised: bool)

  /**
   * `__enter__` against a database that answers the query with `rows`: each
   * step is taken only when the previous one completed; a raising step
   * leaves whatever was already opened in place.
   */
  function Enter(m: Manager, rows: seq<Row>, fault: EnterFault): (r: Entered)
    requires m.conn == Unset && m.cursor == Unset && m.results == None
    ensures r.raised <==> fault != NoFault
    ensures !r.raised ==>
              && r.steps == [Open(Connection), Open(Cursor), Execute(m.query, m.params), FetchAll]
              && r.manager.results == Some(rows)
    ensures (r.manager.conn == Live) <==> fault != ConnectFails
    ensures (r.manager.cursor == Live) <==> fault != ConnectFails && fault != CursorFails
    ensures r.manager.conn != Released && r.manager.cursor != Released
    ensures r.manager.results.Some? ==> !r.raised
    ensures Open(Connection) in r.steps <==> r.manager.conn == Live
    ensures Open(Cursor) in r.steps <==> r.manager.cursor == Live
    ensures Close(Connection) !in r.steps && Close(Cursor) !in r.steps
    ensures r.steps <= [Open(Connection), Open(Cursor), Execute(m.query, m.params), FetchAll]
  {
    var run := Execute(m.query, m.params);
    match fault
    case ConnectFails => Entered(m, [], true)
    case CursorFails => Entered(m.(conn := Live), [Open(Connection)], true)
    case ExecuteFails => Entered(m.(conn := Live, cursor := Live), [Open(Connection), Open(Cursor)], true)
    case FetchFails => Entered(m.(conn := Live, cursor := Live), [Open(Connection), Open(Cursor), run], true)
    case NoFault =>
      Entered(m.(conn := Live, cursor := Live, results := Some(rows)), [Open(Connection), Open(Cursor), run, FetchAll], false)
  }

  datatype Exited = Exited(manager: Manager, steps: seq<Step>, suppress: bool)

  /** `__exit__`: the cursor first, then the connection, each only if it was set. */
  function Exit(m: Manager): (r: Exited)
    ensures !r.suppress
    ensures Close(Cursor) in r.steps <==> m.cursor != Unset
    ensures Close(Connection) in r.steps <==> m.conn != Unset
    ensures m.cursor != Unset && m.conn != Unset ==> r.steps == [Close(Cursor), Close(Connection)]
    ensures forall i :: 0 <= i < |r.steps| ==> r.steps[i].Close?
    ensures r.manager.conn != Live && r.manager.cursor != Live
  {
    var closeCursor := if m.cursor != Unset then [Close(Cursor)] else [];
    var closeConn := if m.conn != Unset then [Close(Connection)] else [];
    Exited(m.(cursor := if m.cursor != Unset then Released else Unset,
              conn := if m.conn != Unset then Released else Unset),
           closeCursor + closeConn, false)
  }

  datatype Run = Run(trace: seq<Step>, outcome: Outcome, given: Option<seq<Row>>, manager: Manager)

  /**
   * `with ExecuteQuery(db_name, query, params) as results: <block>`. When
   * `__enter__` raises, `__exit__` is never called; otherwise the block is
   * given the fetched rows and `__exit__` always runs.
   */
  function With(dbName: string, query: string, params: Option<seq<Value>>, rows: seq<Row>,
                fault: EnterFault, bodyRaises: bool): (r: Run)
  {
    var e := Enter(Init(dbName, query, params), rows, fault);
    if e.raised then Run(e.steps, Propagates(FromEnter), None, e.manager)
    else
      var x := Exit(e.manager);
      var outcome := if bodyRaises && !x.suppress then Propagates(FromBody) else Completed;
      Run(e.steps + [RunBody] + x.steps, outcome, e.manager.results, x.manager)
  }

  /**
   * A block that was entered sees every row the query returned, the query
   * runs exactly once with the given (or empty) parameters, the cursor is
   * closed before the connection, everything opened is released, and the
   * block's exception propagates.
   */
  lemma EnteredBlockReleasesAll(dbName: string, query: string, params: Option<seq<Value>>, rows: seq<Row>, bodyRaises: bool)
    ensures var r := With(dbName, query, params, rows, NoFault, bodyRaises);
            var p := if params.Some? then params.value else [];
            && r.given == Some(rows)
            && Occurrences(r.trace, Execute(query, p)) == 1
            && Before(r.trace, Execute(query, p), RunBody)
            && Before(r.trace, Close(Cursor), Close(Connection))
            && AllReleased(r.trace)
            && r.manager.conn == Released && r.manager.cursor == Released
            && (r.outcome == Propagates(FromBody) <==> bodyRaises)
  {
    var p := if params.Some? then params.value else [];
    NoFaultRun(dbName, query, params, rows, bodyRaises);
    FullTraceOrder(query, p);
    FullTraceReleases(query, p);
  }

  /** The trace of a block whose `__enter__` completed. */
  function FullTrace(query: string, p: seq<Value>): seq<Step>
  {
    [Open(Connection), Open(Cursor), Execute(query, p), FetchAll, RunBody, Close(Cursor), Close(Connection)]
  }

  /** What the `with` statement does when `__enter__` completes. */
  lemma NoFaultRun(dbName: string, query: string, params: Option<seq<Value>>, rows: seq<Row>, bodyRaises: bool)
    ensures var r := With(dbName, query, params, rows, NoFault, bodyRaises);
            && r.trace == FullTrace(query, if params.Some? then params.value else [])
            && r.given == Some(rows)
            && r.manager.conn == Released && r.manager.cursor == Released
            && (r.outcome == Propagates(FromBody) <==> bodyRaises)
  {
  }

  /** The full trace runs the query once before the block, and closes the cursor, then the connection. */
  lemma FullTraceOrder(query: string, p: seq<Value>)
    ensures var t := FullTrace(query, p);
            && Occurrences(t, Execute(query, p)) == 1
            && Before(t, Execute(query, p), RunBody)
            && Before(t, Close(Cursor), Close(Connection))
  {
    var t := FullTrace(query, p);
    BeforeAt(t, 2, 4);
    BeforeAt(t, 5, 6);
    OnlyAt(t, 2, Execute(query, p));
  }

  /** The full trace closes both resources after opening them. */
  lemma FullTraceReleases(query: string, p: seq<Value>)
    ensures AllReleased(FullTrace(query, p))
  {
    var t := FullTrace(query, p);
    forall res: Resource ensures Before(t, Open(res), Close(res)) {
      if res == Connection {
        BeforeAt(t, 0, 6);
      } else {
        BeforeAt(t, 1, 5);
      }
    }
  }

  /**
   * When `__enter__` raises after the connection was opened, `__exit__` is
   * not called: the connection (and the cursor, if opened) is never closed,
   * and the block never runs.
   */
  lemma EnterFailureLeaks(dbName: string, query: string, params: Option<seq<Value>>, rows: seq<Row>, fault: EnterFault, bodyRaises: bool)
    requires fault != NoFault
    ensures var r := With(dbName, query, params, rows, fault, bodyRaises);
            && r.outcome == Propagates(FromEnter) && r.given == None
            && RunBody !in r.trace
            && Close(Connection) !in r.trace && Close(Cursor) !in r.trace
            && (fault != ConnectFails ==> Open(Connection) in r.trace && !AllReleased(r.trace))
  {
    var r := With(dbName, query, params, rows, fault, bodyRaises);
    var m := Init(dbName, query, params);
    var full := [Open(Connection), Open(Cursor), Execute(m.query, m.params), FetchAll];
    assert r.trace <= full;
  }
}

=== FILE: lazy_paginate.dfy ===
/**
 * `paginate_users` fetches one page on a fresh connection and
 * `lazy_paginate` yields pages at offsets 0, P, 2P, ... until the first
 * empty page. This module models the page query as evidently intended,
 * `SELECT * FROM user_data LIMIT P OFFSET o`, whose healthy result is that
 * slice of the table; the statement the code actually builds, with the
 * page clause after the `;` of `QUERY`, is modelled in `PaginateAsWritten`.
 */
module LazyPaginate {
  import opened Base
  import opened Rows
  import opened Chunking

  /** What goes wrong when the page at a given offset is requested. */
  datatype Fault =
    | ConnectRaises   // `mysql.connector.connect` raises a driver error
    | NotConnected    // the connection object exists but is not connected
    | QueryRaises(lost: bool)  // the cursor, `execute` or `fetchall` raises; `lost`: the error dropped the connection

  /**
   * The `user_data` table as every page query sees it, and the offsets at
   * which fetching a page fails.
   */
  datatype Table = Table(rows: seq<Row>, faults: map<int, Fault>)

  /** One call of `paginate_users`: the page returned and what was released. */
  datatype PageFetch = PageFetch(page: seq<Row>, connectionOpened: bool, connectionClosed: bool, cursorClosed: bool)

  predicate Healthy(t: Table, offset: int)
  {
    offset !in t.faults
  }

  /**
   * `paginate_users(page_size, offset)` with the page clause inside the
   * SELECT, as evidently intended. Every failure returns `[]`; a negative
   * LIMIT or OFFSET is a SQL syntax error and fails like any other query.
   * The `finally` block closes the connection exactly when it was opened
   * and `is_connected()` still holds, which fails for a connection that
   * never connected or that a driver error dropped; the cursor is closed
   * only on success.
   */
  function PaginateUsers(t: Table, pageSize: int, offset: int): (r: PageFetch)
    ensures pageSize >= 0 ==> |r.page| <= pageSize
    ensures pageSize < 0 || offset < 0 || !Healthy(t, offset) ==> r.page == []
    ensures Healthy(t, offset) && 0 <= offset && 0 <= pageSize ==>
              r.page == t.rows[Min(offset, |t.rows|)..Min(offset + pageSize, |t.rows|)]
  {
    if offset in t.faults && t.faults[offset] == ConnectRaises then PageFetch([], false, false, false)
    else if offset in t.faults && t.faults[offset] == NotConnected then PageFetch([], true, false, false)
    else if offset in t.faults && t.faults[offset] == QueryRaises(true) then PageFetch([], true, false, false)
    else if offset in t.faults || pageSize < 0 || offset < 0 then PageFetch([], true, true, false)
    else PageFetch(t.rows[Min(offset, |t.rows|)..Min(offset + pageSize, |t.rows|)], true, true, true)
  }

  /**
   * The `finally` block of `paginate_users` closes the connection exactly
   * when one was opened and still reports itself connected; the cursor is
   * closed only after a successful fetch.
   */
  lemma PaginateUsersReleases(t: Table, pageSize: int, offset: int)
    ensures var r := PaginateUsers(t, pageSize, offset);
            && (r.connectionOpened <==> !(offset in t.faults && t.faults[offset] == ConnectRaises))
            && (r.connectionClosed <==> StillConnected(t, offset))
            && (r.cursorClosed <==> Healthy(t, offset) && 0 <= offset && 0 <= pageSize)
  {
  }

  /**
   * The connection for the page at `offset` was opened, connected, and not
   * dropped by a driver error, so `is_connected()` still holds when the
   * `finally` block runs.
   */
  predicate StillConnected(t: Table, offset: int)
  {
    !(offset in t.faults && t.faults[offset] in {ConnectRaises, NotConnected, QueryRaises(true)})
  }

  /** No page query at an offset below `stop` fails. */
  predicate HealthyBelow(t: Table, stop: int)
  {
    forall o :: o in t.faults ==> o >= stop
  }

  /** The `while True` loop of `lazy_paginate` from `offset` on. */
  function PagesFrom(t: Table, pageSize: int, offset: int): (pages: seq<seq<Row>>)
    requires offset >= 0
    ensures forall k :: 0 <= k < |pages| ==> pages[k] != [] && |pages[k]| <= pageSize
    decreases |t.rows| - offset
  {
    var page := PaginateUsers(t, pageSize, offset).page;
    if page == [] then []
    else [page] + PagesFrom(t, pageSize, offset + pageSize)
  }

  /**
   * `lazy_paginate(page_size)`, drained: page `k` is what `paginate_users`
   * returned `k` steps of P after offset 0 (`k * P`, by
   * `OffsetAfterIsProduct`), every yielded page is non-empty, and the first
   * empty page, `|pages|` steps on, ends the loop unyielded.
   */
  function LazyPaginate(t: Table, pageSize: int): (pages: seq<seq<Row>>)
    ensures forall k :: 0 <= k < |pages| ==> pages[k] == PaginateUsers(t, pageSize, OffsetAfter(0, pageSize, k)).page
    ensures forall k :: 0 <= k < |pages| ==> pages[k] != []
    ensures PaginateUsers(t, pageSize, OffsetAfter(0, pageSize, |pages|)).page == []
  {
    PagesAtOffsets(t, pageSize, 0);
    PagesEndAt(t, pageSize, 0);
    PagesFrom(t, pageSize, 0)
  }

  /** When the loop yields anything, its first page is the one at `offset` and it moves on by P. */
  lemma PagesStep(t: Table, pageSize: int, offset: int)
    requires offset >= 0 && PagesFrom(t, pageSize, offset) != []
    ensures pageSize >= 1
    ensures PagesFrom(t, pageSize, offset) ==
              [PaginateUsers(t, pageSize, offset).page] + PagesFrom(t, pageSize, offset + pageSize)
  {
  }

  /** Page `k > 0` from `offset` on is page `k - 1` from the next offset. */
  lemma PagesShift(t: Table, pageSize: int, offset: int, k: nat)
    requires offset >= 0 && 0 < k < |PagesFrom(t, pageSize, offset)|
    ensures pageSize >= 1 && k - 1 < |PagesFrom(t, pageSize, offset + pageSize)|
    ensures PagesFrom(t, pageSize, offset)[k] == PagesFrom(t, pageSize, offset + pageSize)[k - 1]
  {
    PagesStep(t, pageSize, offset);
  }

  /** The offset `k` pages of `pageSize` after `offset`, counted page by page. */
  function OffsetAfter(offset: int, pageSize: int, k: nat): int
    decreases k
  {
    if k == 0 then offset else OffsetAfter(offset + pageSize, pageSize, k - 1)
  }

  lemma {:induction false} OffsetAfterIsProduct(offset: int, pageSize: int, k: nat)
    ensures OffsetAfter(offset, pageSize, k) == offset + k * pageSize
    decreases k
  {
    if k > 0 {
      OffsetAfterIsProduct(offset + pageSize, pageSize, k - 1);
      NextPageOffset(offset, pageSize, k);
    }
  }

  /** Page `k` from `offset` on is what `paginate_users` returned `k` pages further on. */
  lemma {:induction false} PageAt(t: Table, pageSize: int, offset: int, k: nat)
    requires offset >= 0 && k < |PagesFrom(t, pageSize, offset)|
    ensures PagesFrom(t, pageSize, offset)[k] == PaginateUsers(t, pageSize, OffsetAfter(offset, pageSize, k)).page
    decreases k
  {
    if k > 0 {
      PagesShift(t, pageSize, offset, k);
      PageAt(t, pageSize, offset + pageSize, k - 1);
    }
  }

  /** Every page from `offset` on is what `paginate_users` returned that many steps further on. */
  lemma PagesAtOffsets(t: Table, pageSize: int, offset: int)
    requires offset >= 0
    ensures forall k :: 0 <= k < |PagesFrom(t, pageSize, offset)| ==>
              PagesFrom(t, pageSize, offset)[k] == PaginateUsers(t, pageSize, OffsetAfter(offset, pageSize, k)).page
  {
    forall k | 0 <= k < |PagesFrom(t, pageSize, offset)|
      ensures PagesFrom(t, pageSize, offset)[k] == PaginateUsers(t, pageSize, OffsetAfter(offset, pageSize, k)).page
    {
      PageAt(t, pageSize, offset, k);
    }
  }

  /** The loop stopped because the page right after the last one yielded was empty. */
  lemma {:induction false} PagesEndAt(t: Table, pageSize: int, offset: int)
    requires offset >= 0
    ensures PaginateUsers(t, pageSize, OffsetAfter(offset, pageSize, |PagesFrom(t, pageSize, offset)|)).page == []
    decreases |t.rows| - offset
  {
    if PagesFrom(t, pageSize, offset) != [] {
      PagesStep(t, pageSize, offset);
      PagesEndAt(t, pageSize, offset + pageSize);
    }
  }

  /**
   * Page `k` is what `paginate_users` returned at offset `offset + k * P`,
   * and the loop stopped because the page right after the last one was empty.
   */
  lemma PagesFromOffsets(t: Table, pageSize: int, offset: int)
    requires offset >= 0
    ensures var pages := PagesFrom(t, pageSize, offset);
            && (forall k :: 0 <= k < |pages| ==> pages[k] == PaginateUsers(t, pageSize, offset + k * pageSize).page)
            && PaginateUsers(t, pageSize, offset + |pages| * pageSize).page == []
  {
    var pages := PagesFrom(t, pageSize, offset);
    forall k | 0 <= k < |pages|
      ensures pages[k] == PaginateUsers(t, pageSize, offset + k * pageSize).page
    {
      PageAt(t, pageSize, offset, k);
      OffsetAfterIsProduct(offset, pageSize, k);
    }
    PagesEndAt(t, pageSize, offset);
    OffsetAfterIsProduct(offset, pageSize, |pages|);
  }

  lemma NextPageOffset(offset: int, pageSize: int, k: int)
    ensures offset + pageSize + (k - 1) * pageSize == offset + k * pageSize
  {
    assert (k - 1) * pageSize == k * pageSize - pageSize;
  }

  /** From a healthy offset on, the pages are the chunks of the rest of the table. */
  lemma {:induction false} PagesFromAreChunks(t: Table, pageSize: nat, offset: nat)
    requires pageSize >= 1 && offset <= |t.rows|
    requires HealthyBelow(t, |t.rows|)
    ensures PagesFrom(t, pageSize, offset) == Chunks(t.rows[offset..|t.rows|], pageSize)
    decreases |t.rows| - offset
  {
    var stop := |t.rows|;
    if offset + pageSize <= stop {
      var next := offset + pageSize;
      PagesFromAreChunks(t, pageSize, next);
      var s := t.rows[offset..stop];
      SliceSplit(t.rows, offset, next, stop);
      calc {
        PagesFrom(t, pageSize, offset);
        { FullPageFirst(t, pageSize, offset); }
        [t.rows[offset..next]] + PagesFrom(t, pageSize, next);
        [s[..pageSize]] + Chunks(s[pageSize..], pageSize);
        { ChunksFirst(s, pageSize); }
        Chunks(s, pageSize);
      }
    } else if offset < stop {
      LastPage(t, pageSize, offset);
      ChunksShort(t.rows[offset..stop], pageSize);
    } else {
      assert t.rows[offset..stop] == [];
    }
  }

  /** A short healthy page is the last page. */
  lemma LastPage(t: Table, pageSize: nat, offset: nat)
    requires pageSize >= 1 && offset < |t.rows| < offset + pageSize
    requires HealthyBelow(t, |t.rows|)
    ensures PagesFrom(t, pageSize, offset) == [t.rows[offset..|t.rows|]]
  {
    assert PaginateUsers(t, pageSize, offset).page == t.rows[offset..|t.rows|];
    assert PaginateUsers(t, pageSize, offset + pageSize).page == [];
  }

  /**
   * Over a table whose page queries all succeed, `lazy_paginate` yields the
   * chunks of the table: they concatenate to the whole table in order.
   */
  lemma LazyPaginateCoversTable(t: Table, pageSize: nat)
    requires pageSize >= 1
    requires HealthyBelow(t, |t.rows|)
    ensures LazyPaginate(t, pageSize) == Chunks(t.rows, pageSize)
    ensures Flatten(LazyPaginate(t, pageSize)) == t.rows
  {
    PagesFromAreChunks(t, pageSize, 0);
    assert t.rows[0..|t.rows|] == t.rows;
  }

  /** Over a table whose page queries all succeed, there are ceil(N / P) pages. */
  lemma LazyPaginatePageCount(t: Table, pageSize: nat)
    requires pageSize >= 1
    requires HealthyBelow(t, |t.rows|)
    ensures var n := |LazyPaginate(t, pageSize)|;
            (n - 1) * pageSize < |t.rows| <= n * pageSize
  {
    LazyPaginateCoversTable(t, pageSize);
    ChunksCount(t.rows, pageSize);
  }

  /** Five rows in pages of two arrive as pages of 2, 2 and 1 rows, and then the loop stops. */
  lemma FiveRowsInTwos(t: Table)
    requires |t.rows| == 5 && t.faults == map[]
    ensures var p := LazyPaginate(t, 2);
            |p| == 3 && |p[0]| == 2 && |p[1]| == 2 && |p[2]| == 1
  {
    LazyPaginateCoversTable(t, 2);
    var s := t.rows;
    ChunksFirst(s, 2);
    ChunksFirst(s[2..], 2);
    ChunksShort(s[2..][2..], 2);
  }

  /** A full healthy page at `offset` is the first page, and the loop moves on by P. */
  lemma FullPageFirst(t: Table, pageSize: nat, offset: nat)
    requires pageSize >= 1 && offset + pageSize <= |t.rows| && offset !in t.faults
    ensures var pages := PagesFrom(t, pageSize, offset);
            && |pages| >= 1
            && pages[0] == t.rows[offset..offset + pageSize]
            && pages[1..] == PagesFrom(t, pageSize, offset + pageSize)
  {
    assert PaginateUsers(t, pageSize, offset).page == t.rows[offset..offset + pageSize];
  }

  /** `stop` is reached from `offset` in whole pages of `pageSize`. */
  predicate OnGrid(offset: nat, stop: nat, pageSize: nat)
    decreases stop - offset
  {
    offset == stop || (pageSize >= 1 && offset + pageSize <= stop && OnGrid(offset + pageSize, stop, pageSize))
  }

  lemma {:induction false} MultipleOnGrid(offset: nat, pageSize: nat, m: nat)
    requires pageSize >= 1
    ensures OnGrid(offset, offset + m * pageSize, pageSize)
    decreases m
  {
    if m > 0 {
      NextPageOffset(offset, pageSize, m);
      assert (m - 1) * pageSize >= 0;
      MultipleOnGrid(offset + pageSize, pageSize, m - 1);
    }
  }

  /** Pages from `offset` up to a failing offset `stop` a whole number of pages later. */
  lemma {:induction false} PagesUpToFault(t: Table, pageSize: nat, offset: nat, stop: nat)
    requires pageSize >= 1 && OnGrid(offset, stop, pageSize)
    requires stop <= |t.rows| && stop in t.faults
    requires HealthyBelow(t, stop)
    ensures PagesFrom(t, pageSize, offset) == Chunks(t.rows[offset..stop], pageSize)
    decreases stop - offset
  {
    if offset == stop {
      assert t.rows[offset..stop] == [];
    } else {
      var next := offset + pageSize;
      assert next <= stop && OnGrid(next, stop, pageSize);
      PagesUpToFault(t, pageSize, next, stop);
      var s := t.rows[offset..stop];
      SliceSplit(t.rows, offset, next, stop);
      calc {
        PagesFrom(t, pageSize, offset);
        { FullPageFirst(t, pageSize, offset); }
        [t.rows[offset..next]] + PagesFrom(t, pageSize, next);
        [s[..pageSize]] + Chunks(s[pageSize..], pageSize);
        { ChunksFirst(s, pageSize); }
        Chunks(s, pageSize);
      }
    }
  }

  /**
   * A failing page is indistinguishable from the end of the table: when the
   * first failure happens at offset o = m * P, the consumer sees exactly the
   * pages of the table cut off at o.
   */
  lemma FaultLooksLikeEndOfTable(t: Table, pageSize: nat, m: nat)
    requires pageSize >= 1
    requires m * pageSize <= |t.rows|
    requires m * pageSize in t.faults
    requires HealthyBelow(t, m * pageSize)
    ensures LazyPaginate(t, pageSize) == LazyPaginate(Table(t.rows[..m * pageSize], map[]), pageSize)
  {
    MultipleOnGrid(0, pageSize, m);
    PagesUpToFault(t, pageSize, 0, m * pageSize);
    LazyPaginateCoversTable(Table(t.rows[..m * pageSize], map[]), pageSize);
    assert t.rows[0..m * pageSize] == t.rows[..m * pageSize];
  }
}

=== FILE: middleware_permissions.dfy ===
/**
 * `IsParticipantOfConversation` of the middleware project: the same
 * participant test, additionally gated on the HTTP verb.
 */
module MiddlewarePermissions {
  import opened Chats
  import ChatPermissions

  /** DRF's `SAFE_METHODS`. */
  const SafeMethods: set<string> := {"GET", "HEAD", "OPTIONS"}

  /** The write methods the permission lets participants use. */
  const WriteMethods: set<string> := {"POST", "PUT", "PATCH", "DELETE"}

  /** `has_permission`: `request.user and request.user.is_authenticated`. */
  function HasPermission(u: Requester): (r: bool)
    ensures r == ChatPermissions.HasPermission(u)
  {
    u != NoUser && u.Member?
  }

  /**
   * `has_object_permission`: participants get the safe and the write
   * methods; every other method, and every non-participant, is refused.
   */
  function HasObjectPermission(u: Requester, verb: string, t: Target): (r: bool)
    ensures r <==> (verb in SafeMethods || verb in WriteMethods) && ChatPermissions.HasObjectPermission(u, t)
  {
    var isParticipant :=
      if t.ConversationTarget? then IsParticipant(u, t.conversation)
      else if t.MessageTarget? then IsParticipant(u, t.parent)
      else false;
    if verb in SafeMethods then isParticipant
    else if verb in WriteMethods then isParticipant
    else false
  }

  /** On the seven standard methods the two permission classes agree. */
  lemma AgreesOnStandardMethods(u: Requester, verb: string, t: Target)
    requires verb in SafeMethods || verb in WriteMethods
    ensures HasObjectPermission(u, verb, t) == ChatPermissions.HasObjectPermission(u, t)
  {
  }

  /** Any other verb, such as TRACE, is refused even to participants. */
  lemma OtherMethodsRefused(u: Requester, verb: string, t: Target)
    requires verb !in SafeMethods && verb !in WriteMethods
    ensures !HasObjectPermission(u, verb, t)
  {
  }

  /** Whatever the method, a request from outside the conversation is refused. */
  lemma NonParticipantRefused(u: Requester, verb: string, c: Conversation, m: Message)
    requires !IsParticipant(u, c)
    ensures !HasObjectPermission(u, verb, ConversationTarget(c))
    ensures !HasObjectPermission(u, verb, MessageTarget(m, c))
  {
  }
}

=== FILE: paginate_as_written.dfy ===
/**
 * `paginate_users` as written: `QUERY` ends in `;` and the page clause is
 * appended after it, so every page request sends
 * `SELECT * FROM user_data; LIMIT P OFFSET o`, two statements on one
 * `execute` without `multi=True`. What comes back then depends on how the
 * driver treats the text after the first `;`; under either reading
 * `lazy_paginate` does not page through the table.
 */
module PaginateAsWritten {
  import opened Rows
  import opened LazyPaginate

  /** `QUERY`, with its trailing `;`. */
  const Query: string := "SELECT * FROM user_data;"

  /** `str(n)` for a natural number: its decimal digits. */
  function Digits(n: nat): (r: string)
    ensures r != [] && ';' !in r
    decreases n
  {
    var last := [(48 + n % 10) as char];
    if n < 10 then last else Digits(n / 10) + last
  }

  /** `str(n)` for an integer, with a leading `-` when it is negative. */
  function Decimal(n: int): (r: string)
    ensures r != [] && ';' !in r
  {
    if n < 0 then "-" + Digits(-n) else Digits(n)
  }

  /** The statement the f-string of `paginate_users` builds: the page clause after `QUERY`. */
  function AsWrittenStatement(pageSize: int, offset: int): string
  {
    Query + " LIMIT " + Decimal(pageSize) + " OFFSET " + Decimal(offset)
  }

  /** The statement evidently intended: the page clause inside the one SELECT. */
  function IntendedStatement(pageSize: int, offset: int): string
  {
    Query[..|Query| - 1] + " LIMIT " + Decimal(pageSize) + " OFFSET " + Decimal(offset)
  }

  /** No `;` before the last character: the text is a single SQL statement. */
  predicate SingleStatement(sql: string)
  {
    forall i :: 0 <= i < |sql| - 1 ==> sql[i] != ';'
  }

  /** The as-written page request always carries text after a `;`. */
  lemma AsWrittenIsTwoStatements(pageSize: int, offset: int)
    ensures !SingleStatement(AsWrittenStatement(pageSize, offset))
  {
    var sql := AsWrittenStatement(pageSize, offset);
    assert sql[|Query| - 1] == ';';
  }

  /** The corrected page request is one statement for every page size and offset. */
  lemma IntendedIsOneStatement(pageSize: int, offset: int)
    ensures SingleStatement(IntendedStatement(pageSize, offset))
  {
    var select := Query[..|Query| - 1];
    assert select == "SELECT * FROM user_data";
    var sql := IntendedStatement(pageSize, offset);
    assert ';' !in sql;
  }

  /**
   * How the driver treats the text after the first `;` of an `execute`
   * without `multi=True`. By `AsWrittenIsTwoStatements` every as-written
   * page request has such text, so the driver's reading alone decides the
   * page.
   */
  datatype Driver =
    | RejectsTrailing  // the trailing text is refused or fails to parse: `execute` raises an `Error`
    | IgnoresTrailing  // only the first statement's result is read: `fetchall` returns the whole table

  /**
   * One call of `paginate_users` as written. The connect and connection
   * faults happen as before the statement is sent; otherwise a driver that
   * rejects the trailing clause makes every page `[]` with the cursor left
   * open, and one that ignores it returns the whole table on every page.
   * The `finally` block behaves exactly as in the corrected fetch.
   */
  function PaginateUsersAsWritten(t: Table, driver: Driver, pageSize: int, offset: int): (r: PageFetch)
    ensures driver == RejectsTrailing ==> r.page == [] && !r.cursorClosed
    ensures driver == IgnoresTrailing && Healthy(t, offset) ==> r.page == t.rows && r.cursorClosed
    ensures !Healthy(t, offset) ==> r.page == []
    ensures r.connectionOpened <==> !(offset in t.faults && t.faults[offset] == ConnectRaises)
    ensures r.connectionClosed <==> StillConnected(t, offset)
  {
    if offset in t.faults && t.faults[offset] == ConnectRaises then PageFetch([], false, false, false)
    else if offset in t.faults && t.faults[offset] in {NotConnected, QueryRaises(true)} then PageFetch([], true, false, false)
    else if offset in t.faults then PageFetch([], true, true, false)
    else if driver == RejectsTrailing then PageFetch([], true, true, false)
    else PageFetch(t.rows, true, true, true)
  }

  /**
   * The first `fuel` rounds of the `while True` loop of `lazy_paginate`
   * over the as-written fetch, from `offset` on. The loop itself has no
   * bound: over a driver that ignores the trailing clause it never reaches
   * its `break`, so only a bounded prefix of it can be a value.
   */
  function PagesAsWritten(t: Table, driver: Driver, pageSize: int, offset: int, fuel: nat): (pages: seq<seq<Row>>)
    ensures |pages| <= fuel
    ensures forall k :: 0 <= k < |pages| ==> pages[k] != []
    decreases fuel
  {
    if fuel == 0 then []
    else
      var page := PaginateUsersAsWritten(t, driver, pageSize, offset).page;
      if page == [] then []
      else [page] + PagesAsWritten(t, driver, pageSize, offset + pageSize, fuel - 1)
  }

  /**
   * Over a driver that rejects the trailing clause, the first page is `[]`,
   * the loop breaks at once and `lazy_paginate` yields nothing, whatever the
   * table holds.
   */
  lemma AsWrittenYieldsNothing(t: Table, pageSize: int, fuel: nat)
    ensures PagesAsWritten(t, RejectsTrailing, pageSize, 0, fuel) == []
  {
  }

  /**
   * Over a driver that ignores the trailing clause and a non-empty table
   * whose queries all succeed, every round yields the whole table again:
   * the `break` on an empty page is never reached.
   */
  lemma {:induction false} AsWrittenNeverEnds(t: Table, pageSize: int, offset: int, fuel: nat)
    requires t.rows != [] && t.faults == map[]
    ensures var pages := PagesAsWritten(t, IgnoresTrailing, pageSize, offset, fuel);
            && |pages| == fuel
            && forall k :: 0 <= k < fuel ==> pages[k] == t.rows
    decreases fuel
  {
    if fuel > 0 {
      AsWrittenNeverEnds(t, pageSize, offset + pageSize, fuel - 1);
      var rest := PagesAsWritten(t, IgnoresTrailing, pageSize, offset + pageSize, fuel - 1);
      assert PagesAsWritten(t, IgnoresTrailing, pageSize, offset, fuel) == [t.rows] + rest;
    }
  }

  /**
   * Five healthy rows in pages of two: the corrected loop yields pages of
   * 2, 2 and 1 rows; as written it yields nothing over one driver and the
   * whole table round after round over the other.
   */
  lemma FiveRowsAsWritten(t: Table)
    requires |t.rows| == 5 && t.faults == map[]
    ensures |LazyPaginate.LazyPaginate(t, 2)| == 3
    ensures PagesAsWritten(t, RejectsTrailing, 2, 0, 3) == []
    ensures PagesAsWritten(t, IgnoresTrailing, 2, 0, 4) == [t.rows, t.rows, t.rows, t.rows]
  {
    FiveRowsInTwos(t);
    AsWrittenYieldsNothing(t, 2, 3);
    AsWrittenNeverEnds(t, 2, 0, 4);
  }
}

=== FILE: retry_on_failure.dfy ===
/**
 * `retry_on_failure(retries, delay)` re-invokes the wrapped function after
 * each `sqlite3.OperationalError`, sleeping in between, until it returns,
 * raises anything else, or has failed `retries` times after the first
 * attempt; `with_db_connection` opens one connection around the call and
 * closes it on every path.
 */
module RetryOnFailure {

  datatype Exception = OperationalError(msg: string) | OtherError(msg: string)

  /** One invocation of the wrapped function: it returns or raises. */
  datatype Attempt<T> = Returns(value: T) | Throws(exc: Exception)

  /**
   * How the wrapped function behaves on its successive invocations: the
   * listed outcomes first, then `thereafter` on every later invocation.
   */
  datatype Behaviour<T> = Behaviour(first: seq<Attempt<T>>, thereafter: Attempt<T>)
  {
    function At(i: nat): Attempt<T>
    {
      if i < |first| then first[i] else thereafter
    }
  }

  /** Only `sqlite3.OperationalError` is treated as transient. */
  predicate Transient<T>(a: Attempt<T>)
  {
    a.Throws? && a.exc.OperationalError?
  }

  /** Observable steps: opening and closing the connection, calls, sleeps. */
  datatype Event = Connect | Invoke | Sleep | Close

  /** What a decorated call did: its result (returned or re-raised) and its steps. */
  datatype Call<T> = Call(result: Attempt<T>, invocations: nat, trace: seq<Event>)

  /** The most invocations the wrapper makes: the first attempt plus `retries` retries. */
  function MaxInvocations(retries: int): nat
  {
    if retries < 0 then 1 else retries + 1
  }

  /** The steps of `n` attempts: every invocation but the last is followed by a sleep. */
  function Attempts(n: nat): seq<Event>
    requires n >= 1
  {
    if n == 1 then [Invoke] else [Invoke, Sleep] + Attempts(n - 1)
  }

  function Count(s: seq<Event>, e: Event): nat
  {
    if |s| == 0 then 0 else (if s[0] == e then 1 else 0) + Count(s[1..], e)
  }

  lemma {:induction false} CountAppend(a: seq<Event>, b: seq<Event>, e: Event)
    ensures Count(a + b, e) == Count(a, e) + Count(b, e)
  {
    if |a| == 0 {
      assert a + b == b;
    } else {
      assert (a + b)[0] == a[0];
      assert (a + b)[1..] == a[1..] + b;
      CountAppend(a[1..], b, e);
    }
  }

  /**
   * `n` attempts make `n` invocations and `n - 1` sleeps, never touch the
   * connection, and end with an invocation: no sleep after the final one.
   */
  lemma {:induction false} AttemptsCounts(n: nat)
    requires n >= 1
    ensures Count(Attempts(n), Invoke) == n
    ensures Count(Attempts(n), Sleep) == n - 1
    ensures Count(Attempts(n), Connect) == 0 && Count(Attempts(n), Close) == 0
    ensures Attempts(n)[0] == Invoke && Attempts(n)[|Attempts(n)| - 1] == Invoke
  {
    if n > 1 {
      AttemptsCounts(n - 1);
      forall e: Event ensures Count(Attempts(n), e) == Count([Invoke, Sleep], e) + Count(Attempts(n - 1), e) {
        CountAppend([Invoke, Sleep], Attempts(n - 1), e);
      }
      assert [Invoke, Sleep][1..] == [Sleep];
      assert [Sleep][1..] == [];
    }
  }

  /**
   * The `while True` loop of the wrapper, entered with `attempt` failures
   * counted so far.
   */
  function RetryLoop<T>(b: Behaviour<T>, retries: int, attempt: nat): (c: Call<T>)
    requires attempt < MaxInvocations(retries)
    ensures 1 <= c.invocations <= MaxInvocations(retries) - attempt
    ensures c.trace == Attempts(c.invocations)
    ensures forall i :: attempt <= i < attempt + c.invocations - 1 ==> Transient(b.At(i))
    ensures c.result == b.At(attempt + c.invocations - 1)
    ensures Transient(c.result) ==> attempt + c.invocations == MaxInvocations(retries)
    decreases MaxInvocations(retries) - attempt
  {
    var outcome := b.At(attempt);
    if !Transient(outcome) then Call(outcome, 1, [Invoke])
    else if attempt + 1 > retries then Call(outcome, 1, [Invoke])
    else
      var rest := RetryLoop(b, retries, attempt + 1);
      Call(rest.result, rest.invocations + 1, [Invoke, Sleep] + rest.trace)
  }

  /**
   * A call through `retry_on_failure(retries)`: every invocation but the
   * last raised OperationalError and was followed by a sleep; the last one's
   * outcome is returned or re-raised unchanged; an OperationalError is
   * re-raised only after the full `retries + 1` invocations.
   */
  function RetryOnFailure<T>(b: Behaviour<T>, retries: int): (c: Call<T>)
    ensures 1 <= c.invocations <= MaxInvocations(retries)
    ensures c.trace == Attempts(c.invocations)
    ensures forall i :: 0 <= i < c.invocations - 1 ==> Transient(b.At(i))
    ensures c.result == b.At(c.invocations - 1)
    ensures Transient(c.result) ==> c.invocations == MaxInvocations(retries)
  {
    RetryLoop(b, retries, 0)
  }

  /** A first call that returns is returned at once: one invocation, no sleep. */
  lemma ImmediateSuccess<T>(b: Behaviour<T>, retries: int)
    requires b.At(0).Returns?
    ensures RetryOnFailure(b, retries) == Call(b.At(0), 1, [Invoke])
  {
  }

  /**
   * An exception other than OperationalError propagates on its first
   * occurrence, with no retry and no sleep after it.
   */
  lemma OtherErrorPropagates<T>(b: Behaviour<T>, retries: int, k: nat)
    requires k < MaxInvocations(retries)
    requires forall i :: 0 <= i < k ==> Transient(b.At(i))
    requires b.At(k).Throws? && b.At(k).exc.OtherError?
    ensures RetryOnFailure(b, retries).result == b.At(k)
    ensures RetryOnFailure(b, retries).invocations == k + 1
    ensures Count(RetryOnFailure(b, retries).trace, Sleep) == k
  {
    var c := RetryOnFailure(b, retries);
    AttemptsCounts(c.invocations);
  }

  /**
   * OperationalError `f` times and then success, with `f <= retries`: the
   * wrapper succeeds after `f + 1` invocations and `f` sleeps.
   */
  lemma FlakySuccess<T>(b: Behaviour<T>, retries: int, f: nat)
    requires f <= retries
    requires forall i :: 0 <= i < f ==> Transient(b.At(i))
    requires b.At(f).Returns?
    ensures RetryOnFailure(b, retries).result == b.At(f)
    ensures RetryOnFailure(b, retries).invocations == f + 1
    ensures Count(RetryOnFailure(b, retries).trace, Sleep) == f
  {
    var c := RetryOnFailure(b, retries);
    AttemptsCounts(c.invocations);
  }

  /**
   * A persisting OperationalError is re-raised, the last one, after exactly
   * `retries + 1` invocations and `retries` sleeps.
   */
  lemma PersistentFailure<T>(b: Behaviour<T>, retries: nat)
    requires forall i :: 0 <= i <= retries ==> Transient(b.At(i))
    ensures RetryOnFailure(b, retries).result == b.At(retries)
    ensures RetryOnFailure(b, retries).invocations == retries + 1
    ensures Count(RetryOnFailure(b, retries).trace, Sleep) == retries
  {
    var c := RetryOnFailure(b, retries);
    AttemptsCounts(c.invocations);
  }

  /** How `sqlite3.connect('users.db')` turns out. */
  datatype Opening = Opened | ConnectFails(exc: Exception)

  /**
   * `with_db_connection`: open a connection, run the function with it,
   * close it in `finally`, and hand back the function's result unchanged.
   * The connect sits outside the `try`: when it raises, the function is
   * never called, nothing is closed, and the exception propagates.
   */
  function WithDbConnection<T>(opening: Opening, inner: Call<T>): (c: Call<T>)
    ensures opening.Opened? ==>
              && c.result == inner.result && c.invocations == inner.invocations
              && |c.trace| >= 2 && c.trace[0] == Connect && c.trace[|c.trace| - 1] == Close
              && c.trace[1..|c.trace| - 1] == inner.trace
    ensures opening.ConnectFails? ==>
              c.result == Throws(opening.exc) && c.invocations == 0 && Invoke !in c.trace && Close !in c.trace
  {
    match opening
    case Opened => Call(inner.result, inner.invocations, [Connect] + inner.trace + [Close])
    case ConnectFails(exc) => Call(Throws(exc), 0, [])
  }

  /**
   * `fetch_users_with_retry`: `with_db_connection` outside
   * `retry_on_failure(retries=5)`. Once connected it makes one to six
   * attempts, every one but the last failing with OperationalError, and
   * hands back the last outcome; a failed connect makes none.
   */
  function FetchUsersWithRetry<T>(opening: Opening, b: Behaviour<T>): (c: Call<T>)
    ensures opening.Opened? ==>
              && 1 <= c.invocations <= 6
              && (forall i :: 0 <= i < c.invocations - 1 ==> Transient(b.At(i)))
              && c.result == b.At(c.invocations - 1)
              && (Transient(c.result) ==> c.invocations == 6)
    ensures opening.ConnectFails? ==> c.result == Throws(opening.exc) && c.invocations == 0
  {
    WithDbConnection(opening, RetryOnFailure(b, 5))
  }

  /**
   * Once the connection opens, all attempts share it: it is opened once
   * before the first attempt and closed once after the last, and there are
   * one to six attempts.
   */
  lemma FetchUsersSharesOneConnection<T>(b: Behaviour<T>)
    ensures var c := FetchUsersWithRetry(Opened, b);
            && Count(c.trace, Connect) == 1 && Count(c.trace, Close) == 1
            && c.trace[0] == Connect && c.trace[|c.trace| - 1] == Close
            && 1 <= Count(c.trace, Invoke) == c.invocations <= 6
  {
    var inner := RetryOnFailure(b, 5);
    var c := FetchUsersWithRetry(Opened, b);
    AttemptsCounts(inner.invocations);
    assert c.trace == [Connect] + inner.trace + [Close];
    forall e: Event ensures Count(c.trace, e) == Count([Connect], e) + Count(inner.trace, e) + Count([Close], e) {
      CountAppend([Connect], inner.trace, e);
      CountAppend([Connect] + inner.trace, [Close], e);
    }
  }

  /**
   * The retry loop sits inside the connection: a connect that raises, even
   * with OperationalError, is never retried and runs no attempt at all.
   */
  lemma ConnectFailureNotRetried<T>(b: Behaviour<T>, msg: string)
    ensures var c := FetchUsersWithRetry(ConnectFails(OperationalError(msg)), b);
            && c.result == Throws(OperationalError(msg))
            && c.invocations == 0 && Count(c.trace, Invoke) == 0 && Count(c.trace, Sleep) == 0
  {
  }
}

=== FILE: rows.dfy ===
/**
 * Rows of the `user_data` table as the MySQL driver hands them out with
 * `dictionary=True`: a mapping from column name to a scalar value.
 */
module Rows {

  /** A column value: an integer (the DECIMAL age), text, or SQL NULL. */
  datatype Value = Int(i: int) | Text(s: string) | Null

  type Row = map<string, Value>

  /** A Python dict is falsy exactly when it has no entries. */
  predicate Truthy(row: Row)
  {
    |row| > 0
  }
}

/**
 * The abstract cursor every streaming producer reads from. The driver
 * delivers the rows of `rows` in order and then either reports the end of the
 * result set or raises a driver error (`mysql.connector.Error`).
 */
module Cursor {
  import opened Base

  /**
   * How the result set ends. A driver error may also drop the connection
   * (`lost`), after which `is_connected()` answers false.
   */
  datatype Tail = EndOfSet | DriverError(lost: bool)

  datatype ResultSet<T> = ResultSet(rows: seq<T>, tail: Tail)

  /** How `mysql.connector.connect` and `is_connected()` turn out. */
  datatype Connect = Refused | Disconnected | Connected

  /**
   * How far the consumer drives a generator: to exhaustion, or it takes `n`
   * items and then closes the generator (which runs its `finally` blocks).
   */
  datatype Demand = All | Take(n: nat)

  /** Why a producer stopped. */
  datatype Ending =
    | EndOfRows      // the cursor reported no further rows
    | Swallowed      // an error was caught and printed; the stream just ends
    | Abandoned      // the consumer closed the generator early
    | NeverStarted   // the consumer closed the generator before the first pull

  /** The result set ends in a driver error that also drops the connection. */
  predicate DropsConnection<T>(rs: ResultSet<T>)
  {
    rs.tail.DriverError? && rs.tail.lost
  }

  /** What a producer's loop hands the consumer, and why it stopped. */
  datatype Run<T> = Run(items: seq<T>, ending: Ending)

  /** What the consumer of a producer observes, plus the release flags. */
  datatype Stream<T> = Stream(items: seq<T>, ending: Ending, cursorClosed: bool, connectionClosed: bool)

  /** The consumer has received all it wanted after `k` items. */
  predicate Satisfied(d: Demand, k: nat)
  {
    d.Take? && k >= d.n
  }

  /** Number of items the consumer asks for at most (`|available|` when it drains). */
  function Limit(d: Demand, available: nat): nat
  {
    match d
    case All => available
    case Take(n) => Min(n, available)
  }

  datatype Fetch<T> = Got(item: T) | NoMore | Raises

  /** `cursor.fetchone()` at position `pos`: a row, None at the end, or a driver error. */
  function FetchOne<T>(rs: ResultSet<T>, pos: nat): (f: Fetch<T>)
    requires pos <= |rs.rows|
    ensures f.Got? <==> pos < |rs.rows|
    ensures f.Got? ==> f.item == rs.rows[pos]
    ensures f.Raises? <==> pos == |rs.rows| && rs.tail.DriverError?
  {
    if pos < |rs.rows| then Got(rs.rows[pos])
    else if rs.tail.EndOfSet? then NoMore
    else Raises
  }

  /**
   * `cursor.fetchmany(size)` at position `pos`: the next `size` rows, fewer at
   * the end of the set (possibly none), or a driver error when the chunk
   * would reach past the rows delivered before the failure.
   */
  function FetchMany<T>(rs: ResultSet<T>, pos: nat, size: nat): (f: Fetch<seq<T>>)
    requires pos <= |rs.rows|
    ensures f.Got? ==> f.item == rs.rows[pos..Min(pos + size, |rs.rows|)]
    ensures f.Raises? <==> pos + size > |rs.rows| && rs.tail.DriverError?
    ensures !f.NoMore?
  {
    if pos + size <= |rs.rows| then Got(rs.rows[pos..pos + size])
    else if rs.tail.EndOfSet? then Got(rs.rows[pos..])
    else Raises
  }
}

=== FILE: seed.dfy ===
/**
 * `insert_data` from the seeding script: read the CSV file, skip its header
 * line, skip rows without exactly three fields, skip rows whose email is
 * already in `user_data`, insert every other row under a fresh id, and
 * commit once at the end.
 */
module Seed {

  /** A row of `user_data`; `id` stands for the fresh `uuid4()` string. */
  datatype UserRecord = UserRecord(id: nat, name: string, email: string, age: string)

  /** The CSV file: missing, or its lines already split into fields. */
  datatype CsvFile = Missing | Lines(lines: seq<seq<string>>)

  datatype SeedOutcome =
    | Committed      // every row was handled and `connection.commit()` ran
    | FileNotFound   // `open` raised FileNotFoundError, which is caught
    | NoHeader       // the file is empty: `next(reader)` raises StopIteration, uncaught
    | DatabaseError  // `cursor()`, a duplicate check, an insert or `commit()` raised a driver error, caught

  /**
   * Where the driver raises inside the `try` of `insert_data`:
   * `connection.cursor()`, the statements of the data rows in `broken`, or
   * `connection.commit()`.
   */
  datatype DbFaults = DbFaults(cursorRaises: bool, broken: set<nat>, commitRaises: bool)

  /** The outcome and the inserts issued, committed only when the outcome says so. */
  datatype SeedRun = SeedRun(outcome: SeedOutcome, inserts: seq<UserRecord>)

  datatype Insertion = Insertion(inserted: seq<UserRecord>, failed: bool)

  /** The CSV fields an insert was made from. */
  function Fields(u: UserRecord): seq<string>
  {
    [u.name, u.email, u.age]
  }

  function Emails(users: seq<UserRecord>): set<string>
  {
    set j | 0 <= j < |users| :: users[j].email
  }

  /** Emails of the well-formed data rows from index `i` on. */
  function DataEmails(rows: seq<seq<string>>, i: nat): set<string>
  {
    set k | i <= k < |rows| && |rows[k]| == 3 :: rows[k][1]
  }

  /**
   * Data row `k` (counting from `i`) is the first well-formed row carrying
   * its email, and that email is not already known: the row the loop
   * inserts.
   */
  predicate FirstOccurrence(rows: seq<seq<string>>, i: nat, known: set<string>, k: nat)
  {
    && i <= k < |rows| && |rows[k]| == 3 && rows[k][1] !in known
    && forall m :: i <= m < k && |rows[m]| == 3 ==> rows[m][1] != rows[k][1]
  }

  /** The first occurrences at index `from` or later, in CSV order. */
  function Occurrences(rows: seq<seq<string>>, i: nat, known: set<string>, from: nat): (occ: seq<nat>)
    ensures forall j :: 0 <= j < |occ| ==> from <= occ[j] && FirstOccurrence(rows, i, known, occ[j])
    decreases |rows| - from
  {
    if from >= |rows| then []
    else if FirstOccurrence(rows, i, known, from) then [from] + Occurrences(rows, i, known, from + 1)
    else Occurrences(rows, i, known, from + 1)
  }

  predicate Increasing(s: seq<nat>)
  {
    forall j, l :: 0 <= j < l < |s| ==> s[j] < s[l]
  }

  /** The first occurrences are listed in CSV order, each once. */
  lemma {:induction false} OccurrencesIncreasing(rows: seq<seq<string>>, i: nat, known: set<string>, from: nat)
    ensures Increasing(Occurrences(rows, i, known, from))
    decreases |rows| - from
  {
    if from < |rows| && FirstOccurrence(rows, i, known, from) {
      OccurrencesIncreasing(rows, i, known, from + 1);
      var rest := Occurrences(rows, i, known, from + 1);
      var occ := [from] + rest;
      assert Occurrences(rows, i, known, from) == occ;
      forall j, l | 0 <= j < l < |occ| ensures occ[j] < occ[l] {
        assert occ[l] == rest[l - 1];
        if j > 0 {
          assert occ[j] == rest[j - 1];
        }
      }
    } else if from < |rows| {
      OccurrencesIncreasing(rows, i, known, from + 1);
      assert Occurrences(rows, i, known, from) == Occurrences(rows, i, known, from + 1);
    }
  }

  /** Every first occurrence at `from` or later is listed. */
  lemma {:induction false} OccurrencesComplete(rows: seq<seq<string>>, i: nat, known: set<string>, from: nat)
    ensures forall k: nat :: from <= k && FirstOccurrence(rows, i, known, k) ==> k in Occurrences(rows, i, known, from)
    decreases |rows| - from
  {
    if from < |rows| {
      OccurrencesComplete(rows, i, known, from + 1);
    }
  }

  /** What the duplicate check knows after row `i`: its email, if the row is well-formed. */
  function KnownAfter(rows: seq<seq<string>>, i: nat, known: set<string>): set<string>
    requires i < |rows|
  {
    if |rows[i]| == 3 then known + {rows[i][1]} else known
  }

  /** A row after `i` is a first occurrence from `i` iff it is one from `i + 1` on, once row `i` is known. */
  lemma FirstOccurrenceStep(rows: seq<seq<string>>, i: nat, known: set<string>, k: nat)
    requires i < k && i < |rows|
    ensures FirstOccurrence(rows, i, known, k) <==> FirstOccurrence(rows, i + 1, KnownAfter(rows, i, known), k)
  {
  }

  lemma {:induction false} OccurrencesStep(rows: seq<seq<string>>, i: nat, known: set<string>, from: nat)
    requires i < from && i < |rows|
    ensures Occurrences(rows, i, known, from) == Occurrences(rows, i + 1, KnownAfter(rows, i, known), from)
    decreases |rows| - from
  {
    if from < |rows| {
      FirstOccurrenceStep(rows, i, known, from);
      OccurrencesStep(rows, i, known, from + 1);
    }
  }

  /** The first occurrences from row `i` on: row `i` when it qualifies, then those after it. */
  lemma OccurrencesAt(rows: seq<seq<string>>, i: nat, known: set<string>)
    requires i < |rows|
    ensures Occurrences(rows, i, known, i) ==
              (if |rows[i]| == 3 && rows[i][1] !in known then [i] else [])
              + Occurrences(rows, i + 1, KnownAfter(rows, i, known), i + 1)
  {
    OccurrencesStep(rows, i, known, i + 1);
  }

  predicate UniqueEmails(users: seq<UserRecord>)
  {
    forall j, l :: 0 <= j < l < |users| ==> users[j].email != users[l].email
  }

  /**
   * The `for row in reader` loop from data row `i` on, with `known` the
   * emails the duplicate check would find (the table's plus those inserted
   * earlier in this run, on the same connection). `broken` holds the data
   * rows whose database statements raise.
   */
  function InsertFrom(rows: seq<seq<string>>, i: nat, known: set<string>, nextId: nat, broken: set<nat>): (r: Insertion)
    requires i <= |rows|
    ensures forall j :: 0 <= j < |r.inserted| ==> r.inserted[j].id == nextId + j
    ensures forall j :: 0 <= j < |r.inserted| ==> r.inserted[j].email !in known
    ensures UniqueEmails(r.inserted)
    ensures forall j :: 0 <= j < |r.inserted| ==> Fields(r.inserted[j]) in rows[i..]
    ensures r.failed <==> exists k :: i <= k < |rows| && k in broken && |rows[k]| == 3
    decreases |rows| - i
  {
    if i == |rows| then Insertion([], false)
    else if |rows[i]| != 3 then InsertFrom(rows, i + 1, known, nextId, broken)
    else if i in broken then Insertion([], true)
    else
      var row := rows[i];
      assert rows[i..] == [row] + rows[i + 1..];
      if row[1] in known then InsertFrom(rows, i + 1, known, nextId, broken)
      else
        var rest := InsertFrom(rows, i + 1, known + {row[1]}, nextId + 1, broken);
        var inserted := [UserRecord(nextId, row[0], row[1], row[2])] + rest.inserted;
        assert forall j :: 0 < j < |inserted| ==> inserted[j] == rest.inserted[j - 1];
        assert Fields(inserted[0]) == row;
        Insertion(inserted, rest.failed)
  }

  /** Insert `j` has a source index, and was made from the row it names. */
  predicate MatchedAt(rows: seq<seq<string>>, users: seq<UserRecord>, sources: seq<nat>, j: int)
  {
    0 <= j < |users| && j < |sources| && sources[j] < |rows| && Fields(users[j]) == rows[sources[j]]
  }

  /** Each insert was made from the row its source index names. */
  predicate MatchesRows(rows: seq<seq<string>>, users: seq<UserRecord>, sources: seq<nat>)
  {
    forall j :: 0 <= j < |users| ==> MatchedAt(rows, users, sources, j)
  }

  /** Every insert has a source index, and insert `j` carries the fields of row `sources[j]`. */
  lemma MatchesIndexed(rows: seq<seq<string>>, users: seq<UserRecord>, sources: seq<nat>)
    requires MatchesRows(rows, users, sources)
    ensures |users| <= |sources|
    ensures forall j :: 0 <= j < |users| ==> sources[j] < |rows| && Fields(users[j]) == rows[sources[j]]
  {
    if users != [] {
      assert MatchedAt(rows, users, sources, |users| - 1);
    }
    forall j | 0 <= j < |users| ensures sources[j] < |rows| && Fields(users[j]) == rows[sources[j]] {
      assert MatchedAt(rows, users, sources, j);
    }
  }

  /** An insert from row `k` in front keeps the inserts matched to their rows. */
  lemma MatchesCons(rows: seq<seq<string>>, u: UserRecord, rest: seq<UserRecord>, k: nat, sources: seq<nat>)
    requires k < |rows| && Fields(u) == rows[k]
    requires MatchesRows(rows, rest, sources)
    ensures MatchesRows(rows, [u] + rest, [k] + sources)
  {
    var users := [u] + rest;
    var all := [k] + sources;
    forall j | 0 <= j < |users| ensures MatchedAt(rows, users, all, j) {
      if j == 0 {
        assert users[0] == u && all[0] == k;
      } else {
        assert MatchedAt(rows, rest, sources, j - 1);
        assert users[j] == rest[j - 1] && all[j] == sources[j - 1];
      }
    }
  }

  /**
   * The loop inserts first occurrences in CSV order, each with the name,
   * email and age of its own row.
   */
  lemma {:induction false} InsertFromOccurrences(rows: seq<seq<string>>, i: nat, known: set<string>, nextId: nat, broken: set<nat>)
    requires i <= |rows|
    ensures MatchesRows(rows, InsertFrom(rows, i, known, nextId, broken).inserted, Occurrences(rows, i, known, i))
    decreases |rows| - i
  {
    if i < |rows| {
      var row := rows[i];
      if |row| != 3 || (row[1] in known && i !in broken) {
        SkipRow(rows, i, known, nextId, broken);
        InsertFromOccurrences(rows, i + 1, known, nextId, broken);
      } else if i !in broken {
        TakeRow(rows, i, known, nextId, broken);
        InsertFromOccurrences(rows, i + 1, known + {row[1]}, nextId + 1, broken);
        var rest := InsertFrom(rows, i + 1, known + {row[1]}, nextId + 1, broken);
        MatchesCons(rows, UserRecord(nextId, row[0], row[1], row[2]), rest.inserted, i,
                    Occurrences(rows, i + 1, known + {row[1]}, i + 1));
      }
    }
  }

  /** Unless a statement fails, the loop inserts every first occurrence. */
  lemma {:induction false} InsertFromInsertsAll(rows: seq<seq<string>>, i: nat, known: set<string>, nextId: nat, broken: set<nat>)
    requires i <= |rows|
    ensures !InsertFrom(rows, i, known, nextId, broken).failed ==>
              |InsertFrom(rows, i, known, nextId, broken).inserted| == |Occurrences(rows, i, known, i)|
    decreases |rows| - i
  {
    if i < |rows| {
      var row := rows[i];
      if |row| != 3 || (row[1] in known && i !in broken) {
        SkipRow(rows, i, known, nextId, broken);
        InsertFromInsertsAll(rows, i + 1, known, nextId, broken);
      } else if i !in broken {
        TakeRow(rows, i, known, nextId, broken);
        InsertFromInsertsAll(rows, i + 1, known + {row[1]}, nextId + 1, broken);
      }
    }
  }

  /** A malformed row, or a working one whose email is known, adds no insert and no occurrence. */
  lemma SkipRow(rows: seq<seq<string>>, i: nat, known: set<string>, nextId: nat, broken: set<nat>)
    requires i < |rows| && (|rows[i]| != 3 || (rows[i][1] in known && i !in broken))
    ensures InsertFrom(rows, i, known, nextId, broken) == InsertFrom(rows, i + 1, known, nextId, broken)
    ensures Occurrences(rows, i, known, i) == Occurrences(rows, i + 1, known, i + 1)
  {
    OccurrencesAt(rows, i, known);
    assert KnownAfter(rows, i, known) == known;
  }

  /** A well-formed row with a new email and working statements is the next insert and the next occurrence. */
  lemma TakeRow(rows: seq<seq<string>>, i: nat, known: set<string>, nextId: nat, broken: set<nat>)
    requires i < |rows| && |rows[i]| == 3 && rows[i][1] !in known && i !in broken
    ensures var rest := InsertFrom(rows, i + 1, known + {rows[i][1]}, nextId + 1, broken);
            InsertFrom(rows, i, known, nextId, broken)
              == Insertion([UserRecord(nextId, rows[i][0], rows[i][1], rows[i][2])] + rest.inserted, rest.failed)
    ensures Occurrences(rows, i, known, i) == [i] + Occurrences(rows, i + 1, known + {rows[i][1]}, i + 1)
  {
    OccurrencesAt(rows, i, known);
  }

  /** Without a failure, every first occurrence of a new email is inserted with its row's fields. */
  lemma InsertFromCoversCsv(rows: seq<seq<string>>, i: nat, known: set<string>, nextId: nat, broken: set<nat>)
    requires i <= |rows|
    requires !InsertFrom(rows, i, known, nextId, broken).failed
    ensures forall k: nat :: FirstOccurrence(rows, i, known, k) ==>
              exists u :: u in InsertFrom(rows, i, known, nextId, broken).inserted && Fields(u) == rows[k]
  {
    var r := InsertFrom(rows, i, known, nextId, broken);
    var occ := Occurrences(rows, i, known, i);
    InsertFromOccurrences(rows, i, known, nextId, broken);
    InsertFromInsertsAll(rows, i, known, nextId, broken);
    OccurrencesComplete(rows, i, known, i);
    MatchesIndexed(rows, r.inserted, occ);
    forall k: nat | FirstOccurrence(rows, i, known, k)
      ensures exists u :: u in r.inserted && Fields(u) == rows[k]
    {
      var j :| 0 <= j < |occ| && occ[j] == k;
      assert r.inserted[j] in r.inserted && Fields(r.inserted[j]) == rows[k];
    }
  }

  /** `u` was made from a row of the file (from row `i` on) that comes before the row `v` was made from. */
  predicate MadeBefore(rows: seq<seq<string>>, i: nat, u: UserRecord, v: UserRecord)
  {
    exists a, b :: i <= a < b < |rows| && Fields(u) == rows[a] && Fields(v) == rows[b]
  }

  /** The inserts follow their rows' order in the file. */
  lemma InsertFromInCsvOrder(rows: seq<seq<string>>, i: nat, known: set<string>, nextId: nat, broken: set<nat>)
    requires i <= |rows|
    ensures var r := InsertFrom(rows, i, known, nextId, broken);
            forall j, l :: 0 <= j < l < |r.inserted| ==> MadeBefore(rows, i, r.inserted[j], r.inserted[l])
  {
    var r := InsertFrom(rows, i, known, nextId, broken);
    var occ := Occurrences(rows, i, known, i);
    InsertFromOccurrences(rows, i, known, nextId, broken);
    OccurrencesIncreasing(rows, i, known, i);
    MatchesIndexed(rows, r.inserted, occ);
    forall j, l | 0 <= j < l < |r.inserted|
      ensures MadeBefore(rows, i, r.inserted[j], r.inserted[l])
    {
      assert FirstOccurrence(rows, i, known, occ[l]);
      assert 0 <= j < l < |occ|;
      assert i <= occ[j] < occ[l] < |rows|;
    }
  }

  /** The emails of one more user in front. */
  lemma EmailsCons(u: UserRecord, rest: seq<UserRecord>)
    ensures Emails([u] + rest) == {u.email} + Emails(rest)
  {
    var all := [u] + rest;
    forall e | e in Emails(all) ensures e in {u.email} + Emails(rest) {
      var j :| 0 <= j < |all| && all[j].email == e;
      if j > 0 {
        assert all[j] == rest[j - 1];
      }
    }
    forall e | e in Emails(rest) ensures e in Emails(all) {
      var j :| 0 <= j < |rest| && rest[j].email == e;
      assert all[j + 1] == rest[j];
    }
    assert all[0].email == u.email;
  }

  /** The data emails from row `i` on: row `i`'s, if it is well-formed, and those after it. */
  lemma DataEmailsStep(rows: seq<seq<string>>, i: nat)
    requires i < |rows|
    ensures DataEmails(rows, i) == DataEmails(rows, i + 1) + (if |rows[i]| == 3 then {rows[i][1]} else {})
  {
  }

  /**
   * When no statement fails, the emails inserted are exactly the emails of
   * the well-formed rows that were not already known.
   */
  lemma {:induction false} InsertedEmails(rows: seq<seq<string>>, i: nat, known: set<string>, nextId: nat, broken: set<nat>)
    requires i <= |rows|
    requires !InsertFrom(rows, i, known, nextId, broken).failed
    ensures Emails(InsertFrom(rows, i, known, nextId, broken).inserted) == DataEmails(rows, i) - known
    decreases |rows| - i
  {
    if i < |rows| {
      var row := rows[i];
      DataEmailsStep(rows, i);
      if |row| != 3 || row[1] in known {
        InsertedEmails(rows, i + 1, known, nextId, broken);
      } else {
        InsertedEmails(rows, i + 1, known + {row[1]}, nextId + 1, broken);
        var rest := InsertFrom(rows, i + 1, known + {row[1]}, nextId + 1, broken).inserted;
        EmailsCons(UserRecord(nextId, row[0], row[1], row[2]), rest);
      }
    } else {
      assert DataEmails(rows, i) == {};
    }
  }

  /** The emails already in `user_data` before the run. */
  function KnownEmails(existing: seq<UserRecord>): set<string>
  {
    Emails(existing)
  }

  /**
   * `insert_data(connection, filename)`; `nextId` stands for the fresh
   * `uuid4()` values and `f` for where the driver raises. The cursor is
   * opened before the file, so its failure masks a missing file; a failed
   * commit leaves every issued insert uncommitted.
   */
  function InsertData(existing: seq<UserRecord>, file: CsvFile, nextId: nat, f: DbFaults): (r: SeedRun)
    ensures f.cursorRaises ==> r == SeedRun(DatabaseError, [])
    ensures !f.cursorRaises && file.Missing? ==> r == SeedRun(FileNotFound, [])
    ensures !f.cursorRaises && file.Lines? && file.lines == [] ==> r == SeedRun(NoHeader, [])
    ensures file.Lines? && file.lines != [] ==>
              forall j :: 0 <= j < |r.inserts| ==> Fields(r.inserts[j]) in file.lines[1..]
    ensures file.Lines? && file.lines != [] ==>
              var occ := Occurrences(file.lines[1..], 0, KnownEmails(existing), 0);
              && |r.inserts| <= |occ|
              && (r.outcome == Committed ==> |r.inserts| == |occ|)
              && forall j :: 0 <= j < |r.inserts| ==> Fields(r.inserts[j]) == file.lines[1..][occ[j]]
    ensures forall j :: 0 <= j < |r.inserts| ==> r.inserts[j].email !in KnownEmails(existing)
    ensures UniqueEmails(r.inserts)
    ensures r.outcome == Committed <==>
              && !f.cursorRaises && !f.commitRaises
              && file.Lines? && file.lines != []
              && forall k :: 0 <= k < |file.lines| - 1 && k in f.broken ==> |file.lines[k + 1]| != 3
  {
    if f.cursorRaises then SeedRun(DatabaseError, [])
    else
      match file
      case Missing => SeedRun(FileNotFound, [])
      case Lines(lines) =>
        if |lines| == 0 then SeedRun(NoHeader, [])
        else
          var ins := InsertFrom(lines[1..], 0, KnownEmails(existing), nextId, f.broken);
          InsertFromOccurrences(lines[1..], 0, KnownEmails(existing), nextId, f.broken);
          InsertFromInsertsAll(lines[1..], 0, KnownEmails(existing), nextId, f.broken);
          MatchesIndexed(lines[1..], ins.inserted, Occurrences(lines[1..], 0, KnownEmails(existing), 0));
          assert lines[1..][0..] == lines[1..];
          SeedRun(if ins.failed || f.commitRaises then DatabaseError else Committed, ins.inserted)
  }

  /** The table as committed by a run: only a committed run changes it. */
  function CommittedTable(existing: seq<UserRecord>, run: SeedRun): seq<UserRecord>
  {
    if run.outcome == Committed then existing + run.inserts else existing
  }

  /**
   * A committed run never introduces two rows with the same email, and the
   * table's emails become the old ones plus those of every well-formed
   * data row.
   */
  lemma SeedKeepsEmailsUnique(existing: seq<UserRecord>, file: CsvFile, nextId: nat, f: DbFaults)
    requires UniqueEmails(existing)
    ensures var run := InsertData(existing, file, nextId, f);
            var after := CommittedTable(existing, run);
            && UniqueEmails(after)
            && (run.outcome == Committed ==>
                  Emails(after) == Emails(existing) + DataEmails(file.lines[1..], 0))
  {
    var run := InsertData(existing, file, nextId, f);
    var after := CommittedTable(existing, run);
    if run.outcome == Committed {
      var lines := file.lines;
      InsertedEmails(lines[1..], 0, KnownEmails(existing), nextId, f.broken);
      assert after == existing + run.inserts;
      forall j, l | 0 <= j < l < |after| ensures after[j].email != after[l].email {
        if l >= |existing| {
          assert after[l] == run.inserts[l - |existing|];
          if j >= |existing| {
            assert after[j] == run.inserts[j - |existing|];
          } else {
            assert after[j].email in Emails(existing);
          }
        }
      }
      assert Emails(after) == Emails(existing) + Emails(run.inserts) by {
        forall e | e in Emails(after) ensures e in Emails(existing) + Emails(run.inserts) {
          var j :| 0 <= j < |after| && after[j].email == e;
          if j >= |existing| {
            assert after[j] == run.inserts[j - |existing|];
          }
        }
        forall e | e in Emails(run.inserts) ensures e in Emails(after) {
          var j :| 0 <= j < |run.inserts| && run.inserts[j].email == e;
          assert after[|existing| + j] == run.inserts[j];
        }
        forall e | e in Emails(existing) ensures e in Emails(after) {
          var j :| 0 <= j < |existing| && existing[j].email == e;
          assert after[j] == existing[j];
        }
      }
    }
  }

  /** Scenario: a header, a malformed row, a new user and a duplicate of an existing email. */
  lemma SeedScenario()
    ensures var existing := [UserRecord(0, "Ann", "ann@x.io", "30")];
            var file := Lines([["name", "email", "age"], ["bad"], ["Bob", "bob@x.io", "41"], ["Ann", "ann@x.io", "30"]]);
            InsertData(existing, file, 1, DbFaults(false, {}, false)) == SeedRun(Committed, [UserRecord(1, "Bob", "bob@x.io", "41")])
  {
    var existing := [UserRecord(0, "Ann", "ann@x.io", "30")];
    var lines := [["name", "email", "age"], ["bad"], ["Bob", "bob@x.io", "41"], ["Ann", "ann@x.io", "30"]];
    var rows := lines[1..];
    assert KnownEmails(existing) == {"ann@x.io"} by {
      assert existing[0].email == "ann@x.io";
    }
    assert |rows[0]| == 1;
    assert InsertFrom(rows, 3, {"ann@x.io", "bob@x.io"}, 2, {}) == Insertion([], false);
    assert InsertFrom(rows, 2, {"ann@x.io", "bob@x.io"}, 2, {}) == Insertion([], false);
  }

  /**
   * A failure of `cursor()` or `commit()` leaves the table as it was, even
   * when every row's statements ran.
   */
  lemma SessionFailureCommitsNothing(existing: seq<UserRecord>, file: CsvFile, nextId: nat, f: DbFaults)
    requires f.cursorRaises || f.commitRaises
    ensures var run := InsertData(existing, file, nextId, f);
            run.outcome != Committed && CommittedTable(existing, run) == existing
  {
  }

  /** Two well-formed rows with one email: the first is inserted with its own name and age. */
  lemma FirstRowWins()
    ensures var file := Lines([["name", "email", "age"], ["Ann", "x@a.io", "30"], ["Bob", "x@a.io", "99"]]);
            InsertData([], file, 0, DbFaults(false, {}, false)) == SeedRun(Committed, [UserRecord(0, "Ann", "x@a.io", "30")])
  {
    var rows := [["Ann", "x@a.io", "30"], ["Bob", "x@a.io", "99"]];
    assert InsertFrom(rows, 1, {"x@a.io"}, 1, {}) == Insertion([], false);
  }
}

=== FILE: stream_ages.dfy ===
/**
 * `stream_user_ages` yields the non-NULL values of `SELECT age FROM
 * user_data`; `calculate_average_age` folds them into a running total and
 * count and divides only when the count is positive.
 */
module StreamAges {
  import opened Base
  import opened Cursor

  /** The non-NULL ages among `values`, in their order. */
  function NonNull(values: seq<Option<int>>): (r: seq<int>)
    ensures |r| <= |values|
    ensures forall a :: a in r <==> Some(a) in values
  {
    if |values| == 0 then []
    else
      var rest := NonNull(values[1..]);
      assert forall a :: Some(a) in values <==> values[0] == Some(a) || Some(a) in values[1..];
      match values[0]
      case None => rest
      case Some(a) => [a] + rest
  }

  /** Skipping NULLs commutes with concatenation: the ages keep their result order. */
  lemma {:induction false} NonNullAppend(a: seq<Option<int>>, b: seq<Option<int>>)
    ensures NonNull(a + b) == NonNull(a) + NonNull(b)
  {
    if |a| == 0 {
      assert a + b == b;
    } else {
      assert (a + b)[0] == a[0];
      assert (a + b)[1..] == a[1..] + b;
      NonNullAppend(a[1..], b);
    }
  }

  /**
   * The generator with its `finally` block. A refused connection is caught;
   * on a connection that is not connected `connection.cursor()` raises and
   * is caught, and nothing is closed because the connection is not
   * connected. Otherwise every non-NULL age is yielded and a driver error
   * ends the iteration quietly. Cursor and connection are closed together,
   * only when `is_connected()` still holds at cleanup, so a driver error that
   * dropped the connection leaves both unclosed.
   */
  function StreamUserAges(conn: Connect, rs: ResultSet<Option<int>>): (r: Stream<int>)
    ensures conn == Connected ==> r.items == NonNull(rs.rows)
    ensures conn != Connected ==> r.items == []
    ensures r.ending == Swallowed <==> conn != Connected || rs.tail.DriverError?
    ensures r.cursorClosed == r.connectionClosed == (conn == Connected && !DropsConnection(rs))
  {
    match conn
    case Connected =>
      var live := !DropsConnection(rs);
      Stream(NonNull(rs.rows), if rs.tail == EndOfSet then EndOfRows else Swallowed, live, live)
    case _ => Stream([], Swallowed, false, false)
  }

  /** Sum of a sequence, peeled from the back as a running total grows. */
  function Sum(s: seq<int>): int
  {
    if |s| == 0 then 0 else Sum(s[..|s| - 1]) + s[|s| - 1]
  }

  /** The outcome of `calculate_average_age`, kept as an exact (total, count) pair. */
  datatype Average = NoUsers | Mean(total: int, count: nat)

  /** The reference definition: no users, or the sum and number of the ages. */
  function AverageOf(ages: seq<int>): Average
  {
    if |ages| == 0 then NoUsers else Mean(Sum(ages), |ages|)
  }

  /** The average is exactly `v`: total / count == v without remainder. */
  predicate MeanIs(avg: Average, v: int)
  {
    avg.Mean? && avg.total == v * avg.count
  }

  /**
   * `calculate_average_age`: consume the age stream one value at a time,
   * adding each age to `total` and counting it; report "no users" when
   * nothing was counted, so that no division by zero can happen.
   */
  method CalculateAverageAge(conn: Connect, rs: ResultSet<Option<int>>) returns (avg: Average)
    ensures var ages := StreamUserAges(conn, rs).items;
            && (avg.NoUsers? <==> ages == [])
            && (avg.Mean? ==> avg.count == |ages| > 0 && avg.total == Sum(ages))
            && avg == AverageOf(ages)
  {
    var ages := StreamUserAges(conn, rs).items;
    var total := 0;
    var count := 0;
    while count < |ages|
      invariant count <= |ages|
      invariant total == Sum(ages[..count])
    {
      assert ages[..count + 1][..count] == ages[..count];
      total := total + ages[count];
      count := count + 1;
    }
    assert ages[..count] == ages;
    if count == 0 {
      avg := NoUsers;
    } else {
      avg := Mean(total, count);
    }
  }

  /** A sum of values within [lo, hi] lies within [lo * n, hi * n]. */
  lemma {:induction false} SumBounds(s: seq<int>, lo: int, hi: int)
    requires forall i :: 0 <= i < |s| ==> lo <= s[i] <= hi
    ensures lo * |s| <= Sum(s) <= hi * |s|
  {
    if |s| > 0 {
      var init := s[..|s| - 1];
      SumBounds(init, lo, hi);
      assert lo * |s| == lo * |init| + lo;
      assert hi * |s| == hi * |init| + hi;
    }
  }

  /**
   * Stated in integers: when the oldest and youngest non-NULL ages are `hi`
   * and `lo`, the average lies between them.
   */
  lemma AverageWithinRange(values: seq<Option<int>>, lo: int, hi: int)
    requires forall a :: Some(a) in values ==> lo <= a <= hi
    requires NonNull(values) != []
    ensures var avg := AverageOf(NonNull(values));
            avg.Mean? && lo * avg.count <= avg.total <= hi * avg.count
  {
    var ages := NonNull(values);
    assert forall i :: 0 <= i < |ages| ==> ages[i] in ages;
    SumBounds(ages, lo, hi);
  }

  /** Ages without NULLs are kept as they are, in order. */
  lemma NoNullExample()
    ensures NonNull([Some(20), Some(30), Some(40)]) == [20, 30, 40]
  {
    assert [Some(20), Some(30), Some(40)][1..] == [Some(30), Some(40)];
    assert [Some(30), Some(40)][1..] == [Some(40)];
  }

  /** A NULL age is dropped; the others are kept in order. */
  lemma NullDroppedExample()
    ensures NonNull([Some(20), None, Some(40)]) == [20, 40]
    ensures NonNull([None, None]) == []
  {
    assert [Some(20), None, Some(40)][1..] == [None, Some(40)];
    assert [None, Some(40)][1..] == [Some(40)];
    var nulls: seq<Option<int>> := [None, None];
    assert nulls[1..] == [None];
  }

  /** A NULL age is skipped, not counted as 0: [20, 30, 40] and [20, NULL, 40] both average 30. */
  lemma AverageExamples()
    ensures MeanIs(AverageOf(NonNull([Some(20), Some(30), Some(40)])), 30)
    ensures MeanIs(AverageOf(NonNull([Some(20), None, Some(40)])), 30)
    ensures AverageOf(NonNull([None, None])) == NoUsers
  {
    NoNullExample();
    NullDroppedExample();
    assert [20, 30, 40][..2] == [20, 30];
    assert [20, 30][..1] == [20];
    assert [20][..0] == [];
    assert [20, 40][..1] == [20];
    assert Sum([20, 30, 40]) == 90;
    assert Sum([20, 40]) == 60;
  }
}

=== FILE: stream_users.dfy ===
/**
 * `stream_users`: a generator that yields the rows of `SELECT * FROM
 * user_data` one `fetchone` at a time, swallows driver errors, and releases
 * the cursor and connection in its `finally` block.
 */
module StreamUsers {
  import opened Base
  import opened Rows
  import opened Cursor

  /** Length of the longest prefix of `rows` whose rows are all truthy. */
  function TruthyPrefix(rows: seq<Row>): (n: nat)
    ensures n <= |rows|
    ensures forall i :: 0 <= i < n ==> Truthy(rows[i])
    ensures n < |rows| ==> !Truthy(rows[n])
  {
    if |rows| == 0 || !Truthy(rows[0]) then 0 else 1 + TruthyPrefix(rows[1..])
  }

  /**
   * The `while row:` loop, entered after `pos` rows were fetched and yielded:
   * fetch one row; stop on None, on a falsy row, on a driver error, or when
   * the consumer closes the generator.
   */
  function FetchOneLoop(rs: ResultSet<Row>, pos: nat, d: Demand): (r: Run<Row>)
    requires pos <= |rs.rows|
    ensures pos + |r.items| <= |rs.rows|
    ensures r.items == rs.rows[pos..pos + |r.items|]
    ensures forall i :: pos <= i < pos + |r.items| ==> Truthy(rs.rows[i])
    ensures r.ending == EndOfRows ==>
              (pos + |r.items| == |rs.rows| && rs.tail == EndOfSet)
              || (pos + |r.items| < |rs.rows| && !Truthy(rs.rows[pos + |r.items|]))
    ensures r.ending == Swallowed ==>
              pos + |r.items| == |rs.rows| && rs.tail.DriverError? && !Satisfied(d, pos + |r.items|)
    ensures r.ending == Abandoned ==> Satisfied(d, pos + |r.items|)
    ensures d.Take? && pos <= d.n ==> pos + |r.items| <= d.n
    ensures r.ending != NeverStarted
    decreases |rs.rows| - pos
  {
    if Satisfied(d, pos) then Run([], Abandoned)
    else
      var f := FetchOne(rs, pos);
      if f.Raises? then Run([], Swallowed)
      else if f.NoMore? || !Truthy(f.item) then Run([], EndOfRows)
      else
        var rest := FetchOneLoop(rs, pos + 1, d);
        Run([f.item] + rest.items, rest.ending)
  }

  /**
   * The whole generator as its consumer sees it, with the cleanup of the
   * `finally` block: the cursor is closed when it was created, the
   * connection only when `is_connected()` still holds, which a driver error
   * that dropped the connection falsifies.
   */
  function StreamUsers(conn: Connect, rs: ResultSet<Row>, d: Demand): (r: Stream<Row>)
    ensures |r.items| <= |rs.rows|
    ensures r.items == rs.rows[..|r.items|]
    ensures conn == Connected ==> |r.items| == Limit(d, TruthyPrefix(rs.rows))
    ensures conn != Connected ==> r.items == []
    ensures r.cursorClosed == (conn == Connected && d != Take(0))
    ensures r.connectionClosed <==> r.cursorClosed && !(r.ending == Swallowed && DropsConnection(rs))
    ensures r.ending == Swallowed <==>
              d != Take(0) &&
              (conn == Refused
               || (conn == Connected && rs.tail.DriverError? && TruthyPrefix(rs.rows) == |rs.rows|
                   && (d == All || d.n > |rs.rows|)))
  {
    if d == Take(0) then Stream([], NeverStarted, false, false)
    else
      match conn
      case Refused => Stream([], Swallowed, false, false)
      case Disconnected => Stream([], EndOfRows, false, false)
      case Connected =>
        var run := FetchOneLoop(rs, 0, d);
        Stream(run.items, run.ending, true, !(run.ending == Swallowed && DropsConnection(rs)))
  }

  /**
   * Over a healthy connection and a result set of non-empty rows, draining
   * the generator yields every row exactly once, in result order, and then
   * releases both handles.
   */
  lemma StreamUsersYieldsAll(rs: ResultSet<Row>)
    requires rs.tail == EndOfSet
    requires forall i :: 0 <= i < |rs.rows| ==> Truthy(rs.rows[i])
    ensures StreamUsers(Connected, rs, All).items == rs.rows
    ensures StreamUsers(Connected, rs, All).ending == EndOfRows
    ensures StreamUsers(Connected, rs, All).cursorClosed && StreamUsers(Connected, rs, All).connectionClosed
  {
    var r := StreamUsers(Connected, rs, All);
    assert TruthyPrefix(rs.rows) == |rs.rows|;
    assert r.items == rs.rows[..|rs.rows|];
  }

  /**
   * A driver error that drops the connection mid-stream is swallowed: the
   * consumer keeps the rows delivered before it, the cursor is closed, and
   * the connection is left alone because it no longer reports itself
   * connected.
   */
  lemma StreamUsersLosesConnection(rows: seq<Row>)
    requires forall i :: 0 <= i < |rows| ==> Truthy(rows[i])
    ensures var r := StreamUsers(Connected, ResultSet(rows, DriverError(true)), All);
            && r.items == rows && r.ending == Swallowed
            && r.cursorClosed && !r.connectionClosed
  {
    var rs := ResultSet(rows, DriverError(true));
    assert TruthyPrefix(rows) == |rows|;
    assert StreamUsers(Connected, rs, All).items == rows[..|rows|];
  }

  /**
   * Abandoning the generator after `k` rows hands out exactly those rows and
   * still runs the cleanup.
   */
  lemma StreamUsersEarlyClose(rs: ResultSet<Row>, k: nat)
    requires 0 < k <= TruthyPrefix(rs.rows)
    ensures StreamUsers(Connected, rs, Take(k)).items == rs.rows[..k]
    ensures StreamUsers(Connected, rs, Take(k)).cursorClosed
    ensures StreamUsers(Connected, rs, Take(k)).connectionClosed
  {
  }
}

=== FILE: text.dfy ===
/** Python's `str.strip()` with no arguments. */
module Text {

  /** Characters for which Python's `str.isspace()` holds. */
  predicate IsSpace(c: char)
  {
    || ('\U{09}' <= c <= '\U{0D}')
    || ('\U{1C}' <= c <= '\U{20}')
    || c == '\U{85}' || c == '\U{A0}' || c == '\U{1680}'
    || ('\U{2000}' <= c <= '\U{200A}')
    || c == '\U{2028}' || c == '\U{2029}' || c == '\U{202F}' || c == '\U{205F}' || c == '\U{3000}'
  }

  predicate AllSpace(s: string)
  {
    forall i :: 0 <= i < |s| ==> IsSpace(s[i])
  }

  /** Neither starts nor ends with whitespace. */
  predicate Trimmed(s: string)
  {
    s == [] || (!IsSpace(s[0]) && !IsSpace(s[|s| - 1]))
  }

  /** Drops the leading whitespace. */
  function TrimStart(s: string): (r: string)
    ensures |r| <= |s| && r == s[|s| - |r|..]
    ensures forall i :: 0 <= i < |s| - |r| ==> IsSpace(s[i])
    ensures |r| > 0 ==> !IsSpace(r[0])
  {
    if |s| > 0 && IsSpace(s[0]) then TrimStart(s[1..]) else s
  }

  /** Drops the trailing whitespace. */
  function TrimEnd(s: string): (r: string)
    ensures |r| <= |s| && r == s[..|r|]
    ensures forall i :: |r| <= i < |s| ==> IsSpace(s[i])
    ensures |r| > 0 ==> !IsSpace(r[|r| - 1])
  {
    if |s| > 0 && IsSpace(s[|s| - 1]) then TrimEnd(s[..|s| - 1]) else s
  }

  /** How many leading whitespace characters `strip` removes. */
  function Lead(s: string): nat
  {
    |s| - |TrimStart(s)|
  }

  /**
   * `s.strip()`: `s` is whitespace, then the result, then whitespace, and
   * the result neither starts nor ends with whitespace.
   */
  function Strip(s: string): (r: string)
    ensures Lead(s) + |r| <= |s| && r == s[Lead(s)..Lead(s) + |r|]
    ensures forall i :: 0 <= i < Lead(s) ==> IsSpace(s[i])
    ensures forall i :: Lead(s) + |r| <= i < |s| ==> IsSpace(s[i])
    ensures Trimmed(r)
  {
    var t := TrimStart(s);
    var r := TrimEnd(t);
    TrimmedTail(s, t, r);
    r
  }

  /** Cutting trailing whitespace from a suffix of `s` leaves an infix of `s` followed by whitespace. */
  lemma TrimmedTail(s: string, t: string, r: string)
    requires |t| <= |s| && t == s[|s| - |t|..]
    requires |t| > 0 ==> !IsSpace(t[0])
    requires |r| <= |t| && r == t[..|r|]
    requires forall i :: |r| <= i < |t| ==> IsSpace(t[i])
    requires |r| > 0 ==> !IsSpace(r[|r| - 1])
    ensures var lead := |s| - |t|;
            && r == s[lead..lead + |r|]
            && (forall i :: lead + |r| <= i < |s| ==> IsSpace(s[i]))
            && Trimmed(r)
  {
    var lead := |s| - |t|;
    forall i | lead + |r| <= i < |s| ensures IsSpace(s[i]) {
      assert s[i] == t[i - lead];
    }
    if |r| > 0 {
      assert r[0] == t[0];
    }
  }

  /** A stripped string is empty exactly when the input was all whitespace. */
  lemma StripEmptyIffAllSpace(s: string)
    ensures Strip(s) == "" <==> AllSpace(s)
  {
    var r := Strip(s);
    if r != "" {
      assert s[Lead(s)] == r[0];
    }
  }

  /** Stripping twice changes nothing more. */
  lemma StripIdempotent(s: string)
    ensures Strip(Strip(s)) == Strip(s)
  {
    var r := Strip(s);
    if |r| > 0 {
      assert TrimStart(r) == r;
      assert TrimEnd(r) == r;
    }
  }

  /** The strings `strip` leaves alone are exactly the trimmed ones. */
  lemma StripFixesTrimmed(s: string)
    ensures Strip(s) == s <==> Trimmed(s)
  {
    if Trimmed(s) && |s| > 0 {
      assert TrimStart(s) == s;
      assert TrimEnd(s) == s;
    }
  }
}

=== FILE: views.dfy ===
/**
 * `ConversationViewSet` and `MessageViewSet`: per-action permission lists,
 * the hand-written `get_object` helpers, and the create, update, destroy and
 * list handlers over a `Store`. Every handler is reached only after DRF's
 * `IsAuthenticated` request check, so the requesting user is a stored user
 * given by its key.
 */
module ChatViews {
  import opened Base
  import opened Text
  import opened Chats
  import ChatPermissions

  /** The messages the handlers put in their errors, one tag per message text. */
  datatype Detail =
    | ConversationNotFound      // "Conversation not found."
    | MessageNotFound           // "Message not found."
    | SenderNotFound            // "Sender not found."
    | ParticipantIdsRequired    // participant_ids: "This field is required."
    | MessageFieldsRequired     // "conversation_id, sender_id, and message_body are required."
    | ConversationAccessDenied  // "You do not have permission to access this conversation."
    | MessageAccessDenied       // "You do not have permission to access this message."

  /** The exceptions the handlers raise, and a crash inside a handler. */
  datatype ApiError =
    | ValidationError(detail: Detail)
    | NotFound(detail: Detail)
    | PermissionDenied(detail: Detail)
    | ServerError

  /** The HTTP status DRF answers each error with. */
  function StatusCode(e: ApiError): nat
  {
    match e
    case ValidationError(_) => 400
    case NotFound(_) => 404
    case PermissionDenied(_) => 403
    case ServerError => 500
  }

  /** A handler's outcome: a value with the store after it, or an error with the store untouched. */
  datatype Reply<T> = Done(value: T, store: Store) | Fail(error: ApiError)

  /**
   * What a `get_object` helper hands back: the object, a raised error, or
   * (only the message helper as written) a 403 `Response` object returned
   * in place of the message.
   */
  datatype Fetched<T> = Fetched(value: T) | Raised(error: ApiError) | ForbiddenResponse

  /** Python truthiness of an optional request field: present and non-empty. */
  predicate Given<T>(o: Option<seq<T>>)
  {
    o.Some? && o.value != []
  }

  /**
   * The store invariant the handlers keep: keys match ids, participants and
   * senders are stored users, every message's conversation exists, and
   * every message body is non-empty and trimmed, as `strip` leaves it.
   */
  predicate Valid(s: Store)
  {
    && (forall k :: k in s.conversations ==>
          s.conversations[k].id == k && s.conversations[k].participants <= s.users)
    && (forall k :: k in s.messages ==>
          && s.messages[k].id == k
          && s.messages[k].conversation in s.conversations
          && s.messages[k].sender in s.users
          && s.messages[k].body != [] && Trimmed(s.messages[k].body))
  }

  /** DRF's `self.action`: the viewset action a request is routed to, or none of them. */
  datatype Action = List | Retrieve | Create | Update | PartialUpdate | Destroy | OtherAction

  /** The object-level checks a `get_permissions` list performs. */
  datatype Check = IsAuthenticatedCheck | IsParticipantCheck

  const ConversationParticipantActions: set<Action> := {Retrieve, Update, PartialUpdate, Destroy}
  const MessageParticipantActions: set<Action> := {List, Retrieve, Update, PartialUpdate, Destroy, Create}

  /** `ConversationViewSet.get_permissions`. */
  function ConversationPermissions(action: Action): (r: seq<Check>)
    ensures |r| >= 1 && r[0] == IsAuthenticatedCheck
    ensures IsParticipantCheck in r <==> action in ConversationParticipantActions
  {
    if action in ConversationParticipantActions then [IsAuthenticatedCheck, IsParticipantCheck]
    else [IsAuthenticatedCheck]
  }

  /** `MessageViewSet.get_permissions`. */
  function MessagePermissions(action: Action): (r: seq<Check>)
    ensures |r| >= 1 && r[0] == IsAuthenticatedCheck
    ensures IsParticipantCheck in r <==> action in MessageParticipantActions
  {
    if action in MessageParticipantActions then [IsAuthenticatedCheck, IsParticipantCheck]
    else [IsAuthenticatedCheck]
  }

  /**
   * The message view demands participation for every action the
   * conversation view does, and also for `list` and `create`; a partial
   * update is checked exactly like an update.
   */
  lemma PermissionListsCompared(action: Action)
    ensures action in ConversationParticipantActions ==> MessagePermissions(action) == ConversationPermissions(action)
    ensures MessagePermissions(PartialUpdate) == MessagePermissions(Update)
    ensures ConversationPermissions(PartialUpdate) == ConversationPermissions(Update)
    ensures IsParticipantCheck in MessagePermissions(Create) && IsParticipantCheck !in ConversationPermissions(Create)
    ensures IsParticipantCheck in MessagePermissions(List) && IsParticipantCheck !in ConversationPermissions(List)
  {
  }

  /**
   * One object-level check. `IsAuthenticated` keeps DRF's default
   * `has_object_permission`, which always grants.
   */
  predicate Passes(check: Check, user: Id, t: Target)
  {
    match check
    case IsAuthenticatedCheck => true
    case IsParticipantCheck => ChatPermissions.HasObjectPermission(Member(user), t)
  }

  /** The `for perm in self.get_permissions()` loop finds no failing check. */
  predicate AllPass(checks: seq<Check>, user: Id, t: Target)
  {
    forall i :: 0 <= i < |checks| ==> Passes(checks[i], user, t)
  }

  // ---------------------------------------------------------------------
  // Conversations
  // ---------------------------------------------------------------------

  /**
   * `ConversationViewSet.get_object(pk)` under `action`: 404 when the key is
   * unknown; when a check fails, a ValidationError (400), not a 403.
   */
  function ConversationGetObject(s: Store, user: Id, action: Action, pk: Id): (r: Fetched<Conversation>)
    ensures pk !in s.conversations ==> r == Raised(NotFound(ConversationNotFound))
    ensures pk in s.conversations ==>
              (r == Fetched(s.conversations[pk]) <==>
                 action !in ConversationParticipantActions || user in s.conversations[pk].participants)
    ensures pk in s.conversations && !r.Fetched? ==>
              r == Raised(ValidationError(ConversationAccessDenied))
  {
    if pk !in s.conversations then Raised(NotFound(ConversationNotFound))
    else
      var c := s.conversations[pk];
      var checks := ConversationPermissions(action);
      if AllPass(checks, user, ConversationTarget(c)) then Fetched(c)
      else Raised(ValidationError(ConversationAccessDenied))
  }

  /** Turns a fetched object into a handler's reply, leaving the store as it is. */
  function Read<T>(s: Store, f: Fetched<T>): Reply<T>
  {
    match f
    case Fetched(v) => Done(v, s)
    case Raised(e) => Fail(e)
    case ForbiddenResponse => Fail(ServerError)
  }

  /** GET /conversations/<pk>/. */
  function ConversationRetrieve(s: Store, user: Id, pk: Id): (r: Reply<Conversation>)
    ensures r.Done? <==> pk in s.conversations && user in s.conversations[pk].participants
    ensures r.Done? ==> r.value == s.conversations[pk] && r.store == s
  {
    Read(s, ConversationGetObject(s, user, Retrieve, pk))
  }

  /** The stored users among the requested ids: `CustomUser.objects.filter(user_id__in=ids)`. */
  function StoredAmong(s: Store, ids: seq<Id>): (r: set<Id>)
    ensures forall p :: p in r <==> p in ids && p in s.users
  {
    set p | p in ids && p in s.users
  }

  /**
   * POST /conversations/: a missing or empty `participant_ids` is a 400;
   * otherwise a new conversation `freshId` is created whose participants
   * are the listed ids that name stored users (unknown ids are dropped).
   */
  function ConversationCreate(s: Store, participantIds: Option<seq<Id>>, freshId: Id): (r: Reply<Conversation>)
    ensures r.Fail? <==> !Given(participantIds)
    ensures r.Fail? ==> r.error == ValidationError(ParticipantIdsRequired)
    ensures r.Done? ==>
              && r.value.id == freshId
              && (forall p :: p in r.value.participants <==> p in participantIds.value && p in s.users)
              && r.store.conversations == s.conversations[freshId := r.value]
              && r.store.messages == s.messages && r.store.users == s.users
  {
    if !Given(participantIds) then Fail(ValidationError(ParticipantIdsRequired))
    else
      var c := Conversation(freshId, StoredAmong(s, participantIds.value));
      Done(c, s.(conversations := s.conversations[freshId := c]))
  }

  /**
   * PUT and PATCH /conversations/<pk>/: only a participant gets past
   * `get_object`; a non-empty `participant_ids` replaces the participant
   * set (the requester may leave it), an empty or missing one changes
   * nothing.
   */
  function ConversationUpdate(s: Store, user: Id, pk: Id, participantIds: Option<seq<Id>>): (r: Reply<Conversation>)
    ensures r.Fail? <==> pk !in s.conversations || user !in s.conversations[pk].participants
    ensures r.Done? ==>
              && r.value.id == s.conversations[pk].id
              && r.store == s.(conversations := s.conversations[pk := r.value])
              && (Given(participantIds) ==>
                    forall p :: p in r.value.participants <==> p in participantIds.value && p in s.users)
              && (!Given(participantIds) ==> r.store == s)
  {
    match ConversationGetObject(s, user, Update, pk)
    case Fetched(c) =>
      if Given(participantIds) then
        var c' := c.(participants := StoredAmong(s, participantIds.value));
        Done(c', s.(conversations := s.conversations[pk := c']))
      else Done(c, s)
    case Raised(e) => Fail(e)
    case ForbiddenResponse => Fail(ServerError)
  }

  /**
   * DELETE /conversations/<pk>/: a participant deletes the conversation and,
   * by the foreign key's cascade, all of its messages; other messages stay.
   */
  function ConversationDestroy(s: Store, user: Id, pk: Id): (r: Reply<()>)
    ensures r.Fail? <==> pk !in s.conversations || user !in s.conversations[pk].participants
    ensures r.Done? ==>
              && r.store.conversations == s.conversations - {pk}
              && r.store.users == s.users
              && (forall k :: k in r.store.messages <==> k in s.messages && s.messages[k].conversation != pk)
              && (forall k :: k in r.store.messages ==> r.store.messages[k] == s.messages[k])
  {
    match ConversationGetObject(s, user, Destroy, pk)
    case Fetched(c) =>
      var kept := map k | k in s.messages && s.messages[k].conversation != pk :: s.messages[k];
      Done((), Store(s.users, s.conversations - {pk}, kept))
    case Raised(e) => Fail(e)
    case ForbiddenResponse => Fail(ServerError)
  }

  /**
   * GET /conversations/: the keys of the conversations the user takes part
   * in, narrowed by a non-empty `participant_id` to those it also takes
   * part in.
   */
  function ConversationList(s: Store, user: Id, participantId: Option<Id>): (r: set<Id>)
    ensures forall k :: k in r <==>
              && k in s.conversations && user in s.conversations[k].participants
              && (Given(participantId) ==> participantId.value in s.conversations[k].participants)
  {
    set k | k in s.conversations && user in s.conversations[k].participants
              && (Given(participantId) ==> participantId.value in s.conversations[k].participants)
  }

  /**
   * Listing and retrieving agree: without a `participant_id` filter, the
   * listed conversations are exactly those whose retrieval succeeds.
   */
  lemma ListMatchesRetrieve(s: Store, user: Id, pk: Id)
    ensures pk in ConversationList(s, user, None) <==> ConversationRetrieve(s, user, pk).Done?
  {
  }

  // ---------------------------------------------------------------------
  // Messages
  // ---------------------------------------------------------------------

  /** The message with the conversation it belongs to, as `select_related` loads it. */
  function MessageTargetOf(s: Store, m: Message): Target
  {
    if m.conversation in s.conversations then MessageTarget(m, s.conversations[m.conversation])
    else OtherTarget
  }

  /** Whether `user` takes part in the conversation of stored message `pk`. */
  predicate InMessageConversation(s: Store, user: Id, pk: Id)
    requires pk in s.messages
  {
    s.messages[pk].conversation in s.conversations
    && user in s.conversations[s.messages[pk].conversation].participants
  }

  /**
   * `MessageViewSet.get_object(pk)` as written: when a check fails it
   * RETURNS a 403 `Response` instead of raising, and the caller goes on to
   * use that response as if it were the message.
   */
  function MessageGetObject(s: Store, user: Id, action: Action, pk: Id): (r: Fetched<Message>)
    ensures pk !in s.messages ==> r == Raised(NotFound(MessageNotFound))
    ensures pk in s.messages ==>
              (r == Fetched(s.messages[pk]) <==>
                 action !in MessageParticipantActions || InMessageConversation(s, user, pk))
    ensures pk in s.messages && !r.Fetched? ==> r == ForbiddenResponse
  {
    if pk !in s.messages then Raised(NotFound(MessageNotFound))
    else
      var m := s.messages[pk];
      if AllPass(MessagePermissions(action), user, MessageTargetOf(s, m)) then Fetched(m)
      else ForbiddenResponse
  }

  /** The helper as evidently intended: a failing check raises PermissionDenied (403). */
  function MessageGetObjectFixed(s: Store, user: Id, action: Action, pk: Id): (r: Fetched<Message>)
    ensures !r.ForbiddenResponse?
    ensures r.Fetched? <==> MessageGetObject(s, user, action, pk).Fetched?
    ensures r.Fetched? ==> r == MessageGetObject(s, user, action, pk)
    ensures pk in s.messages && !r.Fetched? ==>
              r == Raised(PermissionDenied(MessageAccessDenied))
  {
    match MessageGetObject(s, user, action, pk)
    case ForbiddenResponse => Raised(PermissionDenied(MessageAccessDenied))
    case other => other
  }

  /**
   * What `retrieve` does with the helper's result: serialising a `Response`
   * in place of a message fails on the required `message_body` field with
   * an AttributeError, a 500.
   */
  function MessageRetrieveWith(s: Store, f: Fetched<Message>): (r: Reply<Message>)
    ensures r.Done? <==> f.Fetched?
    ensures r.Done? ==> r.value == f.value && r.store == s
    ensures f.ForbiddenResponse? ==> r == Fail(ServerError)
  {
    Read(s, f)
  }

  /** The message body a request carries: `(request.data.get("message_body") or "").strip()`. */
  function BodyOf(body: Option<string>): (r: string)
    ensures Trimmed(r)
    ensures body.Some? ==> r == Strip(body.value)
    ensures body.None? ==> r == []
  {
    match body
    case None => ""
    case Some(b) => Strip(b)
  }

  /**
   * What `update` does with the helper's result: a non-empty stripped body
   * replaces the stored one, an empty one changes nothing. A `Response` in
   * place of a message takes the new body as a plain attribute but has no
   * `save`, and serialising it fails on the required `message_body`
   * field: an AttributeError, so a 500, either way.
   */
  function MessageUpdateWith(s: Store, f: Fetched<Message>, body: Option<string>): (r: Reply<Message>)
    ensures r.Done? <==> f.Fetched?
    ensures f.ForbiddenResponse? ==> r == Fail(ServerError)
    ensures r.Done? ==>
              && r.value.id == f.value.id && r.value.conversation == f.value.conversation
              && r.value.sender == f.value.sender
              && (BodyOf(body) != [] ==> r.value.body == BodyOf(body)
                                         && r.store == s.(messages := s.messages[f.value.id := r.value]))
              && (BodyOf(body) == [] ==> r.value == f.value && r.store == s)
  {
    match f
    case Fetched(m) =>
      var b := BodyOf(body);
      if b != [] then
        var m' := m.(body := b);
        Done(m', s.(messages := s.messages[m.id := m']))
      else Done(m, s)
    case Raised(e) => Fail(e)
    case ForbiddenResponse => Fail(ServerError)
  }

  /** What `destroy` does with the helper's result: the message is deleted. */
  function MessageDestroyWith(s: Store, f: Fetched<Message>): (r: Reply<()>)
    ensures r.Done? <==> f.Fetched?
    ensures f.ForbiddenResponse? ==> r == Fail(ServerError)
    ensures r.Done? ==> r.store == s.(messages := s.messages - {f.value.id})
  {
    match f
    case Fetched(m) => Done((), s.(messages := s.messages - {m.id}))
    case Raised(e) => Fail(e)
    case ForbiddenResponse => Fail(ServerError)
  }

  /** The requester may act on message `pk`: it exists and they take part in its conversation. */
  predicate MayActOn(s: Store, user: Id, pk: Id)
  {
    pk in s.messages && InMessageConversation(s, user, pk)
  }

  /**
   * GET /messages/<pk>/ as written: a participant gets the stored message;
   * an unknown key is a 404; an outsider's request crashes with a 500.
   */
  function MessageRetrieve(s: Store, user: Id, pk: Id): (r: Reply<Message>)
    ensures r.Done? <==> MayActOn(s, user, pk)
    ensures r.Done? ==> r.value == s.messages[pk] && r.store == s
    ensures pk !in s.messages ==> r == Fail(NotFound(MessageNotFound))
    ensures pk in s.messages && !MayActOn(s, user, pk) ==> r == Fail(ServerError)
  {
    MessageRetrieveWith(s, MessageGetObject(s, user, Retrieve, pk))
  }

  /** GET /messages/<pk>/ as evidently intended: the outsider gets a 403. */
  function MessageRetrieveFixed(s: Store, user: Id, pk: Id): (r: Reply<Message>)
    ensures r.Done? <==> MayActOn(s, user, pk)
    ensures r.Done? ==> r.value == s.messages[pk] && r.store == s
    ensures pk !in s.messages ==> r == Fail(NotFound(MessageNotFound))
    ensures pk in s.messages && !MayActOn(s, user, pk) ==> r == Fail(PermissionDenied(MessageAccessDenied))
  {
    MessageRetrieveWith(s, MessageGetObjectFixed(s, user, Retrieve, pk))
  }

  /**
   * PUT and PATCH /messages/<pk>/ as written: a participant's non-empty
   * stripped body replaces the stored body and nothing else; an empty one
   * changes nothing; an unknown key is a 404; an outsider's request crashes
   * with a 500 and changes nothing.
   */
  function MessageUpdate(s: Store, user: Id, pk: Id, body: Option<string>): (r: Reply<Message>)
    ensures r.Done? <==> MayActOn(s, user, pk)
    ensures r.Done? ==>
              var m := s.messages[pk];
              && r.value.id == m.id && r.value.conversation == m.conversation && r.value.sender == m.sender
              && (BodyOf(body) != [] ==> r.value.body == BodyOf(body)
                                         && r.store == s.(messages := s.messages[m.id := r.value]))
              && (BodyOf(body) == [] ==> r.value == m && r.store == s)
    ensures pk !in s.messages ==> r == Fail(NotFound(MessageNotFound))
    ensures pk in s.messages && !MayActOn(s, user, pk) ==> r == Fail(ServerError)
  {
    MessageUpdateWith(s, MessageGetObject(s, user, Update, pk), body)
  }

  /** PUT and PATCH /messages/<pk>/ as evidently intended: the outsider gets a 403. */
  function MessageUpdateFixed(s: Store, user: Id, pk: Id, body: Option<string>): (r: Reply<Message>)
    ensures r.Done? <==> MayActOn(s, user, pk)
    ensures r.Done? ==> r == MessageUpdate(s, user, pk, body)
    ensures pk !in s.messages ==> r == Fail(NotFound(MessageNotFound))
    ensures pk in s.messages && !MayActOn(s, user, pk) ==> r == Fail(PermissionDenied(MessageAccessDenied))
  {
    MessageUpdateWith(s, MessageGetObjectFixed(s, user, Update, pk), body)
  }

  /**
   * DELETE /messages/<pk>/ as written: a participant's request removes
   * exactly that message; an unknown key is a 404; an outsider's request
   * crashes with a 500 and deletes nothing.
   */
  function MessageDestroy(s: Store, user: Id, pk: Id): (r: Reply<()>)
    ensures r.Done? <==> MayActOn(s, user, pk)
    ensures r.Done? ==> r.store == s.(messages := s.messages - {s.messages[pk].id})
    ensures pk !in s.messages ==> r == Fail(NotFound(MessageNotFound))
    ensures pk in s.messages && !MayActOn(s, user, pk) ==> r == Fail(ServerError)
  {
    MessageDestroyWith(s, MessageGetObject(s, user, Destroy, pk))
  }

  /** DELETE /messages/<pk>/ as evidently intended: the outsider gets a 403. */
  function MessageDestroyFixed(s: Store, user: Id, pk: Id): (r: Reply<()>)
    ensures r.Done? <==> MayActOn(s, user, pk)
    ensures r.Done? ==> r == MessageDestroy(s, user, pk)
    ensures pk !in s.messages ==> r == Fail(NotFound(MessageNotFound))
    ensures pk in s.messages && !MayActOn(s, user, pk) ==> r == Fail(PermissionDenied(MessageAccessDenied))
  {
    MessageDestroyWith(s, MessageGetObjectFixed(s, user, Destroy, pk))
  }

  /**
   * As written, a request from outside the conversation about an existing
   * message never gets its 403: retrieve, update and destroy all crash
   * with a 500, and the store is left unchanged.
   */
  lemma OutsiderGetsServerError(s: Store, user: Id, pk: Id, body: Option<string>)
    requires pk in s.messages && !InMessageConversation(s, user, pk)
    ensures MessageRetrieve(s, user, pk) == Fail(ServerError)
    ensures MessageUpdate(s, user, pk, body) == Fail(ServerError)
    ensures MessageDestroy(s, user, pk) == Fail(ServerError)
    ensures StatusCode(ServerError) == 500
  {
  }

  /**
   * Corrected, the same requests are refused with PermissionDenied (403),
   * and the store is left unchanged; participants are served exactly as
   * before.
   */
  lemma OutsiderGetsForbidden(s: Store, user: Id, pk: Id, body: Option<string>)
    requires pk in s.messages
    ensures var denied := PermissionDenied(MessageAccessDenied);
            && (!InMessageConversation(s, user, pk) ==>
                  && MessageRetrieveFixed(s, user, pk) == Fail(denied)
                  && MessageUpdateFixed(s, user, pk, body) == Fail(denied)
                  && MessageDestroyFixed(s, user, pk) == Fail(denied)
                  && StatusCode(denied) == 403)
            && (InMessageConversation(s, user, pk) ==>
                  && MessageRetrieveFixed(s, user, pk) == MessageRetrieve(s, user, pk)
                  && MessageUpdateFixed(s, user, pk, body) == MessageUpdate(s, user, pk, body)
                  && MessageDestroyFixed(s, user, pk) == MessageDestroy(s, user, pk))
  {
  }

  /** The fields of a message creation request. */
  datatype MessageInput = MessageInput(conversationId: Option<Id>, senderId: Option<Id>, body: Option<string>)

  /** `conversation_pk or request.data.get("conversation_id")`. */
  function TargetConversation(conversationPk: Option<Id>, input: MessageInput): Option<Id>
  {
    if Given(conversationPk) then conversationPk else input.conversationId
  }

  /**
   * POST /messages/ and /conversations/<pk>/messages/ as written. The
   * conversation comes from the URL when it carries one, else from the
   * body; conversation, sender and stripped body must all be non-empty
   * (400); an unknown conversation is a 404 and is reported before an
   * unknown sender. No object check runs, so the requesting user plays no
   * part.
   */
  function MessageCreate(s: Store, user: Id, conversationPk: Option<Id>, input: MessageInput, freshId: Id): (r: Reply<Message>)
    ensures var cid := TargetConversation(conversationPk, input);
            && (r == Fail(ValidationError(MessageFieldsRequired)) <==>
                  !Given(cid) || !Given(input.senderId) || BodyOf(input.body) == [])
            && (Given(cid) && Given(input.senderId) && BodyOf(input.body) != [] ==>
                  && (cid.value !in s.conversations ==> r == Fail(NotFound(ConversationNotFound)))
                  && (cid.value in s.conversations && input.senderId.value !in s.users ==>
                        r == Fail(NotFound(SenderNotFound))))
            && ((Given(cid) && Given(input.senderId) && BodyOf(input.body) != []
                 && cid.value in s.conversations && input.senderId.value in s.users) ==> r.Done?)
            && (r.Done? ==>
                  && r.value == Message(freshId, cid.value, input.senderId.value, BodyOf(input.body))
                  && r.value.body != [] && Trimmed(r.value.body)
                  && r.store == s.(messages := s.messages[freshId := r.value]))
  {
    var cid := TargetConversation(conversationPk, input);
    var body := BodyOf(input.body);
    if !Given(cid) || !Given(input.senderId) || body == [] then
      Fail(ValidationError(MessageFieldsRequired))
    else if cid.value !in s.conversations then Fail(NotFound(ConversationNotFound))
    else if input.senderId.value !in s.users then Fail(NotFound(SenderNotFound))
    else
      var m := Message(freshId, cid.value, input.senderId.value, body);
      Done(m, s.(messages := s.messages[freshId := m]))
  }

  /**
   * As written, anyone authenticated may post into any conversation, under
   * any stored sender: the outcome does not depend on who asks.
   */
  lemma CreateIgnoresRequester(s: Store, a: Id, b: Id, conversationPk: Option<Id>, input: MessageInput, freshId: Id)
    ensures MessageCreate(s, a, conversationPk, input, freshId) == MessageCreate(s, b, conversationPk, input, freshId)
  {
  }

  /**
   * Any stored user may post, under their own name, into any stored
   * conversation they do not take part in: a body that starts with a
   * visible character is stored, stripped.
   */
  lemma OutsiderCanPost(s: Store, user: Id, cid: Id, body: string, freshId: Id)
    requires cid != [] && user != [] && cid in s.conversations && user in s.users
    requires !IsParticipant(Member(user), s.conversations[cid])
    requires body != [] && !IsSpace(body[0])
    ensures var r := MessageCreate(s, user, Some(cid), MessageInput(None, Some(user), Some(body)), freshId);
            && r.Done?
            && r.value == Message(freshId, cid, user, Strip(body))
            && r.store.messages == s.messages[freshId := r.value]
  {
    var input := MessageInput(None, Some(user), Some(body));
    assert TargetConversation(Some(cid), input) == Some(cid);
    assert !AllSpace(body);
    StripEmptyIffAllSpace(body);
    assert BodyOf(input.body) == Strip(body);
  }

  /**
   * Creation as evidently intended for an action listed among the
   * participant actions: once the conversation is found, a requester
   * outside it is refused with PermissionDenied (403).
   */
  function MessageCreateFixed(s: Store, user: Id, conversationPk: Option<Id>, input: MessageInput, freshId: Id): (r: Reply<Message>)
    ensures var cid := TargetConversation(conversationPk, input);
            && (r.Done? ==> cid.Some? && cid.value in s.conversations && user in s.conversations[cid.value].participants)
            && (r.Done? ==> r == MessageCreate(s, user, conversationPk, input, freshId))
            && (Given(cid) && cid.value in s.conversations && user in s.conversations[cid.value].participants ==>
                  r == MessageCreate(s, user, conversationPk, input, freshId))
  {
    var cid := TargetConversation(conversationPk, input);
    var body := BodyOf(input.body);
    if !Given(cid) || !Given(input.senderId) || body == [] then
      Fail(ValidationError(MessageFieldsRequired))
    else if cid.value !in s.conversations then Fail(NotFound(ConversationNotFound))
    else if !ChatPermissions.HasObjectPermission(Member(user), ConversationTarget(s.conversations[cid.value])) then
      Fail(PermissionDenied(ConversationAccessDenied))
    else MessageCreate(s, user, conversationPk, input, freshId)
  }

  /**
   * Corrected creation refuses an outsider with a 403 and leaves the store
   * as it was.
   */
  lemma OutsiderCannotPost(s: Store, user: Id, conversationPk: Option<Id>, input: MessageInput, freshId: Id)
    requires var cid := TargetConversation(conversationPk, input);
             Given(cid) && Given(input.senderId) && BodyOf(input.body) != []
             && cid.value in s.conversations && user !in s.conversations[cid.value].participants
    ensures MessageCreateFixed(s, user, conversationPk, input, freshId)
              == Fail(PermissionDenied(ConversationAccessDenied))
  {
  }

  /**
   * GET /messages/ and /conversations/<pk>/messages/: the keys of the
   * messages in conversations the user takes part in, narrowed to one
   * conversation by a non-empty URL key.
   */
  function MessageList(s: Store, user: Id, conversationPk: Option<Id>): (r: set<Id>)
    ensures forall k :: k in r <==>
              && k in s.messages && InMessageConversation(s, user, k)
              && (Given(conversationPk) ==> s.messages[k].conversation == conversationPk.value)
  {
    set k | k in s.messages && InMessageConversation(s, user, k)
              && (Given(conversationPk) ==> s.messages[k].conversation == conversationPk.value)
  }

  /** A listed message is one the corrected retrieve serves. */
  lemma MessageListMatchesRetrieve(s: Store, user: Id, pk: Id)
    ensures pk in MessageList(s, user, None) <==> MessageRetrieveFixed(s, user, pk).Done?
  {
  }

  // ---------------------------------------------------------------------
  // The store invariant
  // ---------------------------------------------------------------------

  /** The conversation handlers keep the store valid; a fresh key is a new UUID. */
  lemma ConversationHandlersKeepValid(s: Store, user: Id, pk: Id, ids: Option<seq<Id>>, freshId: Id)
    requires Valid(s)
    requires freshId !in s.conversations
    ensures var r := ConversationCreate(s, ids, freshId); r.Done? ==> Valid(r.store)
    ensures var r := ConversationUpdate(s, user, pk, ids); r.Done? ==> Valid(r.store)
    ensures var r := ConversationDestroy(s, user, pk); r.Done? ==> Valid(r.store)
  {
    var r := ConversationDestroy(s, user, pk);
    if r.Done? {
      forall k | k in r.store.messages ensures r.store.messages[k].conversation in r.store.conversations {
        assert r.store.messages[k] == s.messages[k];
      }
    }
  }

  /** Storing a well-formed message under its own key keeps the store valid. */
  lemma PutMessageKeepsValid(s: Store, m: Message)
    requires Valid(s)
    requires m.conversation in s.conversations && m.sender in s.users
    requires m.body != [] && Trimmed(m.body)
    ensures Valid(s.(messages := s.messages[m.id := m]))
  {
    var s' := s.(messages := s.messages[m.id := m]);
    forall k | k in s'.messages
      ensures s'.messages[k].id == k && s'.messages[k].conversation in s'.conversations
      ensures s'.messages[k].sender in s'.users
      ensures s'.messages[k].body != [] && Trimmed(s'.messages[k].body)
    {
      if k != m.id {
        assert s'.messages[k] == s.messages[k];
      }
    }
  }

  /** Message creation keeps the store valid, as written and corrected. */
  lemma MessageCreateKeepsValid(s: Store, user: Id, conversationPk: Option<Id>, input: MessageInput, freshId: Id)
    requires Valid(s)
    ensures var r := MessageCreate(s, user, conversationPk, input, freshId); r.Done? ==> Valid(r.store)
    ensures var r := MessageCreateFixed(s, user, conversationPk, input, freshId); r.Done? ==> Valid(r.store)
  {
    var r := MessageCreate(s, user, conversationPk, input, freshId);
    if r.Done? {
      PutMessageKeepsValid(s, r.value);
    }
  }

  /**
   * A message update keeps the store valid, as written and corrected: only
   * a stripped, non-empty body is written.
   */
  lemma MessageUpdateKeepsValid(s: Store, user: Id, pk: Id, body: Option<string>)
    requires Valid(s)
    ensures var r := MessageUpdate(s, user, pk, body); r.Done? ==> Valid(r.store)
    ensures var r := MessageUpdateFixed(s, user, pk, body); r.Done? ==> Valid(r.store)
  {
    var r := MessageUpdate(s, user, pk, body);
    if r.Done? && BodyOf(body) != [] {
      PutMessageKeepsValid(s, r.value);
    }
  }

  /** A message deletion keeps the store valid, as written and corrected. */
  lemma MessageDestroyKeepsValid(s: Store, user: Id, pk: Id)
    requires Valid(s)
    ensures var r := MessageDestroy(s, user, pk); r.Done? ==> Valid(r.store)
    ensures var r := MessageDestroyFixed(s, user, pk); r.Done? ==> Valid(r.store)
  {
    var r := MessageDestroy(s, user, pk);
    if r.Done? {
      forall k | k in r.store.messages ensures r.store.messages[k] == s.messages[k] {
      }
    }
  }

  /**
   * Only participants change anything: whoever is outside a conversation
   * can neither update nor delete it, nor update or delete its messages,
   * whether the message handlers are as written or corrected.
   */
  lemma OutsidersChangeNothing(s: Store, user: Id, pk: Id, ids: Option<seq<Id>>, body: Option<string>)
    ensures pk in s.conversations && user !in s.conversations[pk].participants ==>
              ConversationUpdate(s, user, pk, ids).Fail? && ConversationDestroy(s, user, pk).Fail?
    ensures pk in s.messages && !InMessageConversation(s, user, pk) ==>
              && MessageUpdate(s, user, pk, body).Fail? && MessageDestroy(s, user, pk).Fail?
              && MessageUpdateFixed(s, user, pk, body).Fail? && MessageDestroyFixed(s, user, pk).Fail?
  {
  }
}
